=== FILE: README.md ===
# Word-ladder puzzle core, modelled in Dafny

This project models the core of a daily word-ladder puzzle. A player changes a word one move at a time. Each move must do exactly one of two things: replace one letter, or rearrange all the letters. The model covers five parts of the source:

- **Move rule** (`shared/WordValidator.ts`, module `WordValidator`). `ValidateGuess` gives the three-way verdict Success / UnknownWord / IllegalMove. `GetAllPossibleNextWords` enumerates the legal dictionary neighbours of a word. The letter-difference count is a loop. The anagram test sorts letters. Both are proved equal to their meaning: exactly one position differs, and the multisets of letters are equal.
- **Breadth-first search** (module `WordSearch`). It models `findPath` and `buildPath`, which are the same code in `shared/pathFinder.ts` and `src/pathFinder.ts`. The queue and the visited/predecessor map are updated by loops. A ghost depth map carries the BFS invariant. From it follow:
  - the goal found is at its exact distance;
  - no word closer to the start than the goal is a goal, whether or not the search reached it;
  - an empty queue means every reachable word was reached at its distance;
  - the rebuilt path is a walk in the move graph.
- **Path finders.** `SharedPathFinder.FindPathToNextGoal` is the search the path-creator worker calls (src/pathCreator-worker.ts:13) with pathLength 4. Its shuffler may reorder each neighbour list differently, so it is a permutation chosen per expanded word. `AppPathFinder` holds the app's `findPathBetween`, its `findPathToNextGoal` (forbidden words pre-marked as visited) and the in-place `shuffle`. The draws of `Math.random` are a parameter of the shuffle.
- **Move tree** (`src/WordNode.ts`, class `WordTree.WordNode`). `makeNext` reuses the child carrying the word, or appends a new one.
- **Tree layout** (`src/tree-layout.ts`, class `TreeLayout.Layout`). This is the two-pass Walker / Buchheim–Jünger–Leipert layout:
  - the six tables are maps keyed by node id;
  - a ghost `Shape` gives the tree's nodes by id, their depths and a height bound, which also serves as the termination measure;
  - `firstWalk`, `apportion`, `moveSubtree`, `executeShifts` and `secondWalk` are methods with `modifies` frames;
  - numbers are `real`.

  In `apportion` the code advances `vom` and `vop` with the same nodes as `vim` and `vip`. The model does the same (invariant `vop == vip`). The span in `moveSubtree` is modelled as written; see Findings.

## Model

| member | source | states |
|---|---|---|
| WordValidator.OneLetterDifferenceMeaning | shared/WordValidator.ts:39-47 | the count of differing positions is 1 exactly when one position differs and all others agree (both directions) |
| WordValidator.CountOneLetterDifference | shared/WordValidator.ts:39-47 | the counting loop answers `diffCount === 1` exactly when one position of word1 differs in word2 |
| WordValidator.Insert | shared/WordValidator.ts:50 | inserting a letter into sorted letters keeps them sorted and adds exactly that letter |
| WordValidator.Sort | shared/WordValidator.ts:50 | the sorted letters are in order and are a permutation of the word |
| WordValidator.SortedUnique | shared/WordValidator.ts:49-51 | two sorted strings with the same letters are equal, so joining the sorted letters identifies the multiset |
| WordValidator.AnagramMeaning | shared/WordValidator.ts:49-51 | the sort-and-compare test holds exactly when the two words have the same multiset of letters |
| WordValidator.ValidateGuess | shared/WordValidator.ts:18-37 | different lengths, the same word, and one-diff equal to anagram each give IllegalMove; IllegalMove exactly when the shape is illegal; a legal goal word is Success even outside the allow list; otherwise Success exactly when allowed, UnknownWord exactly when not |
| WordValidator.ShapeIsSymmetric | shared/WordValidator.ts:19-29 | the shape rule, and hence being IllegalMove, does not depend on which word is current |
| WordValidator.NextWordsMembers | shared/WordValidator.ts:10-16 | the words yielded from a list are exactly its words that validate as Success |
| WordValidator.PossibleNextWordsMembers | shared/WordValidator.ts:10-16 | a word is yielded exactly when it is in the allow list and validates as Success |
| WordValidator.NoGoalMoves | shared/WordValidator.ts:10-16 | with no goal word, a yielded word is exactly an allow-list word of legal shape |
| WordValidator.GetAllPossibleNextWords | shared/WordValidator.ts:10-16 | the generator loop yields the Success words in allow-list order, each in the allow list |
| WordSearch.SameNeighboursSameWalks | shared/pathFinder.ts:11 | reordering neighbour lists changes no walk and no distance |
| WordSearch.WalkIsLadder | shared/pathFinder.ts:11 | a walk in the move graph is a ladder: each word is in the list, has legal shape after its predecessor and validates as Success |
| WordSearch.NewWordsFacts | shared/pathFinder.ts:28-32 | the words enqueued for one expansion are exactly the unvisited neighbours, each once |
| WordSearch.MarkAllEntries | shared/pathFinder.ts:28-32 | each newly visited word gets the expanded word as its one predecessor; earlier entries are kept |
| WordSearch.ShallowerExpanded | shared/pathFinder.ts:23-27 | every word at a smaller distance than the queue front was reached at that distance and expanded, and so is not a goal |
| WordSearch.EnqueueNexts | shared/pathFinder.ts:28-33 | the inner loop adds exactly the unvisited neighbours to the visited map, with the current word as predecessor, and appends them at steps + 1 in neighbour order |
| WordSearch.ChainIsWalk | shared/pathFinder.ts:28-32 | in the search's predecessor forest, every predecessor chain is a walk from the start that avoids the pre-marked words |
| WordSearch.GoalFound | shared/pathFinder.ts:24-27 | a goal at the queue front is at its BFS distance (or is the re-enqueued start), and no word at a smaller distance from the start is a goal |
| WordSearch.Exhausted | shared/pathFinder.ts:23-35 | with the queue empty, the reached words are exactly the reachable ones, at their distances, and none is a goal |
| WordSearch.FindPath | shared/pathFinder.ts:18-36 | returns a goal at the least distance at which any goal exists, at its exact distance (or the start, re-reached when it is not pre-marked; both callers pre-mark fromWord), so no word at a smaller distance is a goal; returns null only when no reachable word at its distance is a goal; the visited map is a BFS forest whose pre-marked words have no predecessor |
| WordSearch.BuildPath | shared/pathFinder.ts:38-48 | the path ends at toWord; each word is the recorded predecessor of the next; only the first word can be fromWord; for a reached word it is the predecessor chain from fromWord; without a predecessor it is [toWord] |
| SharedPathFinder.FindPathToNextGoal | shared/pathFinder.ts:3-16 | a result is a ladder of pathLength moves from fromWord that never re-enters fromWord and ends at a non-forbidden word exactly pathLength moves away; null means every word at that distance is forbidden |
| AppPathFinder.Pick | src/pathFinder.ts:64 | `Math.floor(random * i)` is an index below i, and 0 when i is 0 |
| AppPathFinder.SwapPermutes | src/pathFinder.ts:65 | the destructuring swap only reorders |
| AppPathFinder.ShuffledPermutes | src/pathFinder.ts:62-68 | whatever the draws, the shuffled order is a permutation of the input |
| AppPathFinder.Shuffle | src/pathFinder.ts:62-68 | the loop leaves the array in the shuffled order for its draws, a permutation of the old contents, and returns the same array |
| AppPathFinder.FindPathBetween | src/pathFinder.ts:3-13 | the path ends at toWord; it is [fromWord] when the words are equal; when toWord is k moves away it is a ladder of k moves from fromWord; when unreachable it is [toWord] |
| AppPathFinder.PreMarked | src/pathFinder.ts:17 | the pre-marked visited map holds exactly the forbidden words and fromWord, all with a null predecessor |
| AppPathFinder.ShuffledMovesMembers | src/pathFinder.ts:23 | a shuffled neighbour list has exactly the allowed moves as members |
| AppPathFinder.ShuffledMovesWalks | src/pathFinder.ts:23 | walks and distances over the shuffled lists are those over the moves |
| AppPathFinder.FindPathToNextGoal | src/pathFinder.ts:15-28 | a result is a ladder of four moves from fromWord through no forbidden word and not back to fromWord, ending at a word exactly four moves away; null means no word is four moves away |
| WordTree.WordNode.constructor | src/WordNode.ts:9-13 | name equals word; word, parent and id are as given; no children |
| WordTree.FirstWithWord | src/WordNode.ts:16 | the index `find` stops at: no earlier child carries the word, and the one there does |
| WordTree.WordNode.FindChild | src/WordNode.ts:16 | the search returns the first child carrying the word, or null when none does |
| WordTree.WordNode.MakeNext | src/WordNode.ts:15-23 | an existing child for the word is returned with children unchanged; otherwise one fresh node with that word, parent this and no children is appended; either way the result is the first child with the word, and distinct child words stay distinct; only the child list changes, and the new node's offset is 0 |
| WordTree.WordNode.MakeNextTwice | src/WordNode.ts:15-23 | two calls with the same word return the same node and add at most one child; the offset is untouched |
| TreeLayout.IndexOf | src/tree-layout.ts:108 | `indexOf`: the first position holding the node, or -1 when none does |
| TreeLayout.LeftSiblingOf | src/tree-layout.ts:103-117 | the root and a first child have no left sibling; any other child's is the one before it; the leftmost sibling is the parent's first child |
| TreeLayout.Layout.constructor | src/tree-layout.ts:4-9 | the six tables start empty, so every getter gives its default: 0, null, or the node itself for the ancestor |
| TreeLayout.Layout.NextDeeper | src/tree-layout.ts:95-101 | each contour step, through a child or a thread, leads to a node of the tree one level down |
| TreeLayout.Layout.AncestorChoice | src/tree-layout.ts:140-143 | ancestorFunction picks a sibling at or left of v |
| TreeLayout.SpanPositive | src/tree-layout.ts:120 | for a sibling at or left of wp, the span moveSubtree divides by is at least 1 |
| TreeLayout.Layout.MoveSubtree | src/tree-layout.ts:119-126 | prelim, mod and shift of wp grow by s; change of wp drops by s/span and change of wm rises by s/span (applied in that order when they coincide); nothing else changes |
| TreeLayout.ShiftRow | src/tree-layout.ts:129-137 | walking the children right to left, each child's prelim and mod grow by the running total of shifts plus the running sum of changes seen before it |
| TreeLayout.BumpedEntries | src/tree-layout.ts:131-137 | entry by entry: every child's table entry is its old value plus its increment, and every other entry is unchanged |
| TreeLayout.RunningChange | src/tree-layout.ts:135 | the running change total at a child is the sum of the changes of the children to its right |
| TreeLayout.Layout.ExecuteShifts | src/tree-layout.ts:128-138 | the prelim and mod tables become the running-sum bumps of the old ones; change, shift, thread and ancestor are unchanged |
| TreeLayout.Layout.Center | src/tree-layout.ts:31-39 | a node with a left sibling gets that sibling's prelim plus 1 and a mod equal to its prelim minus the midpoint of its first and last child; without one it sits at the midpoint and its mod is kept; only v's prelim and mod entries change, and no entry outside v's subtree |
| TreeLayout.Layout.WalkChild | src/tree-layout.ts:24-26 | one turn of the children loop: the next default ancestor is the old one or the child just walked, and ancestor entries written so far point at siblings to the left; threads from the walked children's subtrees stay among the first i + 1 children's subtrees; no entry outside v's subtree changes |
| TreeLayout.Layout.WalkChildren | src/tree-layout.ts:23-27 | the children loop keeps threads one level down in the tree, every ancestor entry it adds is for a node strictly inside v's subtree, threads of v's subtree stay inside it, and no entry of any table outside v's subtree changes |
| TreeLayout.Layout.FirstWalk | src/tree-layout.ts:14-40 | a leaf takes its left sibling's prelim plus 1 and changes nothing else; an internal node is centred as in Center; threads stay well formed and inside v's subtree; no entry of any table outside v's subtree changes, so the left sibling's prelim is the one read |
| TreeLayout.Layout.ThreadRight | src/tree-layout.ts:78-83 | when vim has a next right node and vop has none, vop is threaded to it with mod raised by sim - sop; otherwise nothing changes |
| TreeLayout.Layout.ThreadLeft | src/tree-layout.ts:84-90 | when vip has a next left node and vom has none, vom is threaded to it with mod raised by sip - som, and this is reported; otherwise nothing changes |
| TreeLayout.Layout.Apportion | src/tree-layout.ts:42-93 | the result is the default ancestor passed in or v; every ancestor entry written points at v; threads stay well formed and among the subtrees of the first i + 1 siblings; no entry outside the parent's subtree changes; without a left sibling nothing changes |
| TreeLayout.Layout.ContourStep | src/tree-layout.ts:66-71 | the gap is the right contour's position plus 1 minus the left one's; when positive, moveSubtree moves v by it from the sibling ancestorFunction picks, at or left of v; otherwise nothing changes |
| TreeLayout.Layout.ContourTurn | src/tree-layout.ts:61-71 | one turn of the contour loop: both contours step one level down within the first i + 1 siblings' subtrees, the new inner right node's ancestor becomes v, and the move is the positive gap or 0 |
| TreeLayout.Layout.WalkContours | src/tree-layout.ts:43-90 | walking the contours and threading their ends writes ancestor entries only to v, keeps threads among the first i + 1 siblings' subtrees and changes nothing outside the parent's subtree |
| TreeLayout.Layout.ThreadEnds | src/tree-layout.ts:78-90 | threading the shorter contour's end changes only threads and mods, within the first n siblings' subtrees, and keeps threads well formed |
| TreeLayout.Layout.SecondWalkChild | src/tree-layout.ts:147-149 | one child's subtree is placed with m plus v's mod; nodes outside it keep their offset |
| TreeLayout.Layout.SecondWalk | src/tree-layout.ts:145-150 | every node in v's subtree gets its prelim plus m plus the mods of its ancestors up to v; other offsets are unchanged |
| TreeLayout.TreeLayoutOf | src/tree-layout.ts:3-13 | every node's offset is its prelim plus the mods of all its strict ancestors minus the root's prelim; the root's offset is 0 |
| TreeLayout.RowRunning | src/tree-layout.ts:128-138 | after one moveSubtree between siblings j < i, executeShifts adds nothing right of i, a decreasing amount between j and i, and a constant from j leftwards |
| TreeLayout.MoveOnRow | src/tree-layout.ts:119-126 | the change and shift tables moveSubtree leaves give, on the row of siblings, the old entries plus RowChanges with the share s/span and RowShifts with s; on an all-zero row, exactly those rows |
| TreeLayout.SpreadAsWritten | src/tree-layout.ts:120 | as written, wm and every sibling to its left move right by s/(i - j + 1), which is nonzero when s is |
| TreeLayout.CorrectedSpan | src/tree-layout.ts:120 | for siblings j < i the written span is i - j + 1 and the corrected span is i - j |
| TreeLayout.SpreadCorrected | src/tree-layout.ts:120 | with the corrected span, wm and its left siblings stay put, a sibling between moves by its distance from wm times s/(i - j), and wp gets nothing beyond its own s |

## Left out

- `src/main.ts`, the renderer, the interaction widgets, the workers, the service worker and word-list loading are not part of this model. They are DOM, canvas, storage, network or file I/O.
- `Math.random` becomes a parameter: `random(w)` gives the draws used while shuffling the neighbours of word w. Only what the shuffle does with its draws is modelled, not their distribution.
- Words are `seq<char>`. The model does not capture the difference between UTF-16 code-unit indexing in `#hasOneLetterDifference` and code-point spreading in `#isAnagram`. Locale-aware lower-casing is outside the core.
- A JavaScript `Set` is an allow list given as a `seq<string>` in its iteration order.
- SharedPathFinder.FindPathToNextGoal: requires the shuffler to return a permutation of its input, as a shuffler does. With any other function the neighbour lists, and so the result, are not the moves. The shuffler is indexed by the word being expanded; the start word is marked visited, so each word is expanded at most once and this covers a shuffler that answers differently on every call. pathLength is an integer; a negative one never matches, and the contract then promises only a null result.
- WordSearch.FindPath: takes a ghost finite set holding every neighbour, as a termination measure. The neighbour lists in the source come from the finite allow list.
- WordSearch.FindPath: does not state which of several goals at the same distance is returned. The program returns the first in queue order; the contract fixes only the distance.
- WordSearch.BuildPath: requires the predecessor map to be rooted at fromWord (every chain of predecessors reaches it). This excludes the maps with a predecessor cycle that misses fromWord, on which buildPath would loop forever. It also excludes maps where a chain stops at another word with no predecessor; buildPath would stop there, and that case is not modelled. FindPath only produces rooted maps.
- Node ids are supplied by whoever makes a node. The layout requires them to be distinct within the tree, which the ghost `Shape` records.
- TreeLayout.Layout.MoveSubtree: requires a nonzero span. Every call from apportion has a span of at least 1 (SpanPositive), so the division by zero the source would turn into an infinite value cannot arise from the layout.
- TreeLayout.Layout.MoveSubtree: keeps the span with the `+ 1` the code has. The corrected span is stated apart, by CorrectedSubtrees and SpreadCorrected, and does not replace it in the layout.
- TreeLayout.Layout.Apportion: weaker than the source. The contract does not state the prelim and mod values the contour loop produces. It states the shape of the result, the ancestor entries written, that threads stay well formed and that no entry outside the parent's subtree changes. The loop's moves are stated one at a time by MoveSubtree, and the final threads by ThreadRight and ThreadLeft.
- TreeLayout.Layout.FirstWalk: for a leaf without a left sibling, the contract says its prelim entry is unchanged rather than 0. No earlier step writes a leaf's entry before its own walk, so it reads as 0 there.
- TreeLayout.Layout.FirstWalk: does not state global non-overlap of the drawing. Only the local placement rules are proved.
- TreeLayout.Layout.ExecuteShifts: computes the new prelim and mod tables by a value-level loop (ShiftRow) and stores them at the end. The source writes each entry as it goes, and no read in the loop observes the difference.
- Numbers are `real`: exact arithmetic in place of IEEE doubles, so rounding in the halves and in `s / subtrees` is not modelled.

## Findings

| source | as written | input that shows it | evidently intended | confidence | as-written member | corrected member |
|---|---|---|---|---|---|---|
| src/tree-layout.ts:120 | `subtrees` is `index(wp) - index(wm) + 1`, so change(wm) and change(wp) get s divided by one more than the number of siblings the move spans | a parent with three children where apportioning the third (i = 2) moves it by s = 1 from the first (j = 0): the first child is moved right by 1/3, although the first child was meant to stay where it was, and the gap the move opens is 2/3, not 1 | `index(wp) - index(wm)`, as in the published algorithm: wm and its left siblings stay put, the siblings in between are spread evenly, and wp moves by s | medium; not executed | TreeLayout.SpreadAsWritten | TreeLayout.SpreadCorrected |

=== FILE: app_path_finder.dfy ===
// src/pathFinder.ts: the app's copy of the search. findPathBetween solves a
// puzzle between two given words; findPathToNextGoal looks for a word exactly
// four moves away, with the forbidden words and the start word marked visited
// before the search; shuffle reorders each neighbour list in place using
// Math.random, whose draws are a parameter here.

module AppPathFinder {

  import opened WordValidator
  import opened WordSearch

  // ---------------------------------------------------------------------------
  // shuffle
  // ---------------------------------------------------------------------------

  /** A value returned by Math.random(). */
  type UnitReal = x: real | 0.0 <= x < 1.0

  /** Math.floor(r * i): an index below i when i > 0, and 0 when i == 0. */
  function Pick(r: UnitReal, i: nat): (j: nat)
    ensures i == 0 ==> j == 0
    ensures i > 0 ==> j < i
  {
    assert 0.0 <= r * i as real <= i as real;
    assert i > 0 ==> r * i as real < i as real;
    (r * i as real).Floor
  }

  /** The destructuring swap `[s[i], s[j]] = [s[j], s[i]]`. */
  function Swap<T>(s: seq<T>, i: nat, j: nat): (r: seq<T>)
    requires i < |s| && j < |s|
  {
    s[i := s[j]][j := s[i]]
  }

  /**
   * The array after the loop iterations for indices i, i - 1, ..., 0; the
   * iteration at index i uses draw number |s| - 1 - i.
   */
  function ShuffleDown<T>(s: seq<T>, i: int, random: nat -> UnitReal): seq<T>
    requires -1 <= i < |s|
    decreases i + 1
  {
    if i < 0 then s
    else ShuffleDown(Swap(s, i, Pick(random(|s| - 1 - i), i)), i - 1, random)
  }

  /** The order shuffle leaves the array in, given its sequence of draws. */
  function Shuffled<T>(s: seq<T>, random: nat -> UnitReal): seq<T>
  {
    ShuffleDown(s, |s| - 1, random)
  }

  lemma SwapPermutes<T>(s: seq<T>, i: nat, j: nat)
    requires i < |s| && j < |s|
    ensures |Swap(s, i, j)| == |s|
    ensures multiset(Swap(s, i, j)) == multiset(s)
  {
    if i != j {
      var t := s[i := s[j]];
      assert t[j] == s[j];
      calc {
        multiset(Swap(s, i, j));
        multiset(t) - multiset{s[j]} + multiset{s[i]};
        multiset(s) - multiset{s[i]} + multiset{s[j]} - multiset{s[j]} + multiset{s[i]};
        multiset(s);
      }
    }
  }

  lemma {:induction false} ShuffleDownPermutes<T>(s: seq<T>, i: int, random: nat -> UnitReal)
    requires -1 <= i < |s|
    ensures |ShuffleDown(s, i, random)| == |s|
    ensures multiset(ShuffleDown(s, i, random)) == multiset(s)
    decreases i + 1
  {
    if i >= 0 {
      var j := Pick(random(|s| - 1 - i), i);
      SwapPermutes(s, i, j);
      ShuffleDownPermutes(Swap(s, i, j), i - 1, random);
    }
  }

  /** Whatever the draws, shuffling only reorders. */
  lemma ShuffledPermutes<T>(s: seq<T>, random: nat -> UnitReal)
    ensures |Shuffled(s, random)| == |s|
    ensures multiset(Shuffled(s, random)) == multiset(s)
  {
    ShuffleDownPermutes(s, |s| - 1, random);
  }

  /**
   * shuffle: walk i from the last index down to 0, swapping a[i] with
   * a[floor(random * i)]; the same array is returned.
   */
  method Shuffle<T>(a: array<T>, random: nat -> UnitReal) returns (r: array<T>)
    modifies a
    ensures r == a
    ensures a[..] == Shuffled(old(a[..]), random)
    ensures multiset(a[..]) == multiset(old(a[..]))
  {
    var i := a.Length - 1;
    while i >= 0
      invariant -1 <= i < a.Length
      invariant ShuffleDown(a[..], i, random) == Shuffled(old(a[..]), random)
    {
      var j := Pick(random(a.Length - 1 - i), i);
      ghost var before := a[..];
      a[i], a[j] := a[j], a[i];
      assert a[..] == Swap(before, i, j);
      i := i - 1;
    }
    assert ShuffleDown(a[..], i, random) == a[..];
    ShuffledPermutes(old(a[..]), random);
    r := a;
  }

  // ---------------------------------------------------------------------------
  // findPathBetween
  // ---------------------------------------------------------------------------

  /**
   * findPathBetween: a shortest ladder from fromWord to toWord when one
   * exists; otherwise buildPath finds no predecessor of toWord and the
   * result is [toWord]. No word is marked visited before the search.
   */
  method FindPathBetween(wordList: seq<string>, fromWord: string, toWord: string) returns (path: seq<string>)
    ensures |path| >= 1 && path[|path| - 1] == toWord
    ensures fromWord == toWord ==> path == [fromWord]
    ensures forall k: nat :: AtDistance(Moves(wordList), {}, fromWord, toWord, k) ==>
              && |path| == k + 1
              && IsWalkBetween(Moves(wordList), {}, path, fromWord, toWord)
              && IsLadder(wordList, path)
    ensures !Reachable(Moves(wordList), {}, fromWord, toWord) ==> path == [toWord]
  {
    var visitedWords: Visited := map[];
    var queue: Queue := [(fromWord, 0)];
    var isGoal := (word: string, steps: nat) => word == toWord;
    var getNexts := Moves(wordList);
    ghost var universe := set w | w in wordList;
    forall u
      ensures forall v :: v in getNexts(u) ==> v in universe
    {
      PossibleNextWordsMembers(Validator(wordList, None), u);
    }
    assert visitedWords.Keys == {};
    var found, visited, steps, depth := FindPath(visitedWords, queue, isGoal, getNexts, fromWord, universe);
    ForestRooted(getNexts, {}, fromWord, visited, depth);
    path := BuildPath(visited, fromWord, toWord, depth);
    if toWord in depth {
      ChainIsWalk(getNexts, {}, fromWord, visited, depth, toWord);
      WalkIsLadder(wordList, {}, path);
      forall k: nat | AtDistance(Moves(wordList), {}, fromWord, toWord, k)
        ensures k == depth[toWord]
      {
        AtDistanceUnique(Moves(wordList), {}, fromWord, toWord, k, depth[toWord]);
      }
    }
  }

  // ---------------------------------------------------------------------------
  // findPathToNextGoal
  // ---------------------------------------------------------------------------

  /** The visited map before the search: every forbidden word and fromWord, with no predecessor. */
  function PreMarked(forbiddenWords: seq<string>, fromWord: string): (m: Visited)
    ensures m.Keys == Blocked(forbiddenWords, fromWord)
    ensures forall w :: w in m ==> m[w] == None
  {
    (map w | w in forbiddenWords :: None)[fromWord := None]
  }

  function Blocked(forbiddenWords: seq<string>, fromWord: string): set<string>
  {
    (set w | w in forbiddenWords) + {fromWord}
  }

  /** The neighbours of a word as findPathToNextGoal enumerates them: the moves, shuffled. */
  function ShuffledMoves(wordList: seq<string>, random: string -> nat -> UnitReal): string -> seq<string>
  {
    w => Shuffled(PossibleNextWords(Validator(wordList, None), w), random(w))
  }

  /** Shuffling the neighbour lists changes their order and nothing else: the same words are neighbours. */
  lemma ShuffledMovesMembers(wordList: seq<string>, random: string -> nat -> UnitReal, u: string)
    ensures forall v :: v in ShuffledMoves(wordList, random)(u) <==> v in Moves(wordList)(u)
    ensures forall v :: v in ShuffledMoves(wordList, random)(u) ==> v in wordList
  {
    var moves := PossibleNextWords(Validator(wordList, None), u);
    assert ShuffledMoves(wordList, random)(u) == Shuffled(moves, random(u)) && Moves(wordList)(u) == moves;
    ShuffledPermutes(moves, random(u));
    SameMembers(Shuffled(moves, random(u)), moves);
    PossibleNextWordsMembers(Validator(wordList, None), u);
  }

  /** Hence a walk over the shuffled lists is a walk over the moves, and distances agree. */
  lemma ShuffledMovesWalks(wordList: seq<string>, random: string -> nat -> UnitReal, blocked: set<string>)
    ensures forall u, v :: v in ShuffledMoves(wordList, random)(u) ==> v in (set w | w in wordList)
    ensures forall p :: IsWalk(ShuffledMoves(wordList, random), blocked, p) <==> IsWalk(Moves(wordList), blocked, p)
    ensures forall from, to, k :: AtDistance(ShuffledMoves(wordList, random), blocked, from, to, k)
                                  <==> AtDistance(Moves(wordList), blocked, from, to, k)
  {
    forall u
      ensures forall v :: v in ShuffledMoves(wordList, random)(u) <==> v in Moves(wordList)(u)
      ensures forall v :: v in ShuffledMoves(wordList, random)(u) ==> v in (set w | w in wordList)
    {
      ShuffledMovesMembers(wordList, random, u);
    }
    SameNeighboursSameWalks(ShuffledMoves(wordList, random), Moves(wordList), blocked);
  }

  /**
   * findPathToNextGoal: a shortest ladder to a word exactly four moves from
   * fromWord that passes through no forbidden word and does not come back
   * to fromWord, or None when there is no such word. The draws used to
   * shuffle the neighbours of w are random(w).
   */
  method FindPathToNextGoal(wordList: seq<string>, forbiddenWords: seq<string>, fromWord: string,
                            random: string -> nat -> UnitReal)
    returns (path: Option<seq<string>>)
    ensures path.Some? ==>
      && |path.value| == 5
      && path.value[0] == fromWord
      && IsWalk(Moves(wordList), Blocked(forbiddenWords, fromWord), path.value)
      && IsLadder(wordList, path.value)
      && path.value[4] !in forbiddenWords && path.value[4] != fromWord
      && AtDistance(Moves(wordList), Blocked(forbiddenWords, fromWord), fromWord, path.value[4], 4)
    ensures path.None? ==>
      forall w :: !AtDistance(Moves(wordList), Blocked(forbiddenWords, fromWord), fromWord, w, 4)
  {
    var visitedWords := PreMarked(forbiddenWords, fromWord);
    var queue: Queue := [(fromWord, 0)];
    var isGoal := (word: string, steps: nat) => steps == 4;
    var getNexts := ShuffledMoves(wordList, random);
    ghost var universe := set w | w in wordList;
    ghost var blocked := Blocked(forbiddenWords, fromWord);
    ShuffledMovesWalks(wordList, random, blocked);
    var toWord, visited, steps, depth := FindPath(visitedWords, queue, isGoal, getNexts, fromWord, universe);
    if toWord.None? {
      return None;
    }
    ChainIsWalk(getNexts, blocked, fromWord, visited, depth, toWord.value);
    var p := BuildPath(visited, fromWord, toWord.value, depth);
    WalkIsLadder(wordList, blocked, p);
    path := Some(p);
  }
}

=== FILE: shared_path_finder.dfy ===
// shared/pathFinder.ts: the path-creator worker's search for the next goal
// word, a word exactly pathLength moves from the current one. The start word is
// the only word marked visited before the search; forbidden words may be
// passed through but are rejected as goals.

module SharedPathFinder {

  import opened WordValidator
  import opened WordSearch

  /**
   * A shuffler that returns a reordering of its input. The shuffler may
   * answer differently on each call (it may draw random numbers), so it is
   * indexed by the word whose neighbours it reorders; the search expands
   * every word at most once, so this covers every sequence of answers.
   */
  ghost predicate Permutes(shuffler: string -> seq<string> -> seq<string>)
  {
    forall w, s :: multiset(shuffler(w)(s)) == multiset(s)
  }

  /**
   * findPathToNextGoal: a shortest ladder from fromWord to a word that is
   * exactly pathLength moves away and not forbidden, or None when every
   * word at that distance is forbidden (or there is none).
   */
  method FindPathToNextGoal(wordList: seq<string>, pathLength: int, forbiddenWords: set<string>, fromWord: string,
                            shuffler: string -> seq<string> -> seq<string>)
    returns (path: Option<seq<string>>)
    requires Permutes(shuffler)
    ensures path.Some? ==>
      && pathLength >= 0
      && |path.value| == pathLength + 1
      && path.value[0] == fromWord
      && path.value[pathLength] !in forbiddenWords
      && IsWalk(Moves(wordList), {fromWord}, path.value)
      && IsLadder(wordList, path.value)
      && AtDistance(Moves(wordList), {fromWord}, fromWord, path.value[pathLength], pathLength)
    ensures path.None? ==>
      forall w :: pathLength >= 0 && AtDistance(Moves(wordList), {fromWord}, fromWord, w, pathLength) ==> w in forbiddenWords
  {
    var visitedWords: Visited := map[fromWord := None];
    var queue: Queue := [(fromWord, 0)];
    var isGoal := (word: string, steps: nat) => steps == pathLength && word !in forbiddenWords;
    var getNexts := (word: string) => shuffler(word)(PossibleNextWords(Validator(wordList, None), word));
    ghost var universe := set w | w in wordList;
    forall u
      ensures forall v :: v in getNexts(u) <==> v in Moves(wordList)(u)
      ensures forall v :: v in getNexts(u) ==> v in universe
    {
      var moves := PossibleNextWords(Validator(wordList, None), u);
      assert getNexts(u) == shuffler(u)(moves) && Moves(wordList)(u) == moves;
      SameMembers(shuffler(u)(moves), moves);
      PossibleNextWordsMembers(Validator(wordList, None), u);
    }
    assert visitedWords.Keys == {fromWord};
    SameNeighboursSameWalks(getNexts, Moves(wordList), {fromWord});
    var toWord, visited, steps, depth := FindPath(visitedWords, queue, isGoal, getNexts, fromWord, universe);
    if toWord.None? {
      return None;
    }
    ChainIsWalk(getNexts, {fromWord}, fromWord, visited, depth, toWord.value);
    var p := BuildPath(visited, fromWord, toWord.value, depth);
    WalkIsLadder(wordList, {fromWord}, p);
    path := Some(p);
  }
}

=== FILE: tree_layout.dfy ===
// src/tree-layout.ts: the two-pass layout that gives every node of the move
// tree a horizontal offset. The first walk runs bottom-up and places each
// node relative to its siblings (prelim), records how far its subtree must
// move (mod), and pushes apart neighbouring subtrees whose contours come
// closer than one unit, spreading the move over the subtrees in between
// (change, shift). Contours are followed through a node's first or last
// child, or through a thread when the node is a leaf. The second walk runs
// top-down and writes each node's offset: its prelim plus the mods of its
// ancestors. All six tables are maps keyed by node id; a missing entry reads
// as 0, as null (thread) or as the node itself (ancestor).

module TreeLayout {

  import opened WordTree

  // ---------------------------------------------------------------------------
  // The shape of the tree being laid out
  // ---------------------------------------------------------------------------

  /**
   * Ghost bookkeeping about the tree: every node by its id, each node's depth
   * and a bound on the depths. The layout only ever reads the tree.
   */
  datatype Shape = Shape(root: WordNode, nodes: map<int, WordNode>, level: map<int, nat>, height: nat)

  ghost predicate InTree(t: Shape, x: WordNode?)
  {
    x != null && x.id in t.nodes && t.nodes[x.id] == x && x.id in t.level
  }

  /**
   * The node with id k, when there is one, carries that id and a level within
   * the bound; unless it is the root it has a parent in the tree one level up
   * and appears among that parent's children; its children are nodes of the
   * tree that point back at it, and none is listed twice.
   */
  ghost predicate NodeOk(t: Shape, k: int)
    reads t.nodes.Values`children
  {
    k in t.nodes ==>
      var x := t.nodes[k];
      && x.id == k && k in t.level && t.level[k] <= t.height
      && (k != t.root.id ==>
            && InTree(t, x.parent)
            && t.level[k] == t.level[x.parent.id] + 1
            && x in x.parent.children)
      && (forall i | 0 <= i < |x.children| :: InTree(t, x.children[i]) && x.children[i].parent == x)
      && (forall i, j | 0 <= i < j < |x.children| :: x.children[i] != x.children[j])
  }

  /** A finite tree under t.root with unique ids. */
  ghost predicate Valid(t: Shape)
    reads t.nodes.Values`children
  {
    && InTree(t, t.root) && t.root.parent == null && t.level[t.root.id] == 0
    && forall k {:trigger NodeOk(t, k)} :: NodeOk(t, k)
  }

  lemma ChildFacts(t: Shape, p: WordNode, i: nat)
    requires Valid(t) && InTree(t, p) && i < |p.children|
    ensures InTree(t, p.children[i]) && p.children[i].parent == p
    ensures p.children[i].id != t.root.id
    ensures t.level[p.children[i].id] == t.level[p.id] + 1 <= t.height
  {
    var c := p.children[i];
    assert NodeOk(t, p.id);
    assert NodeOk(t, c.id);
  }

  lemma ParentFacts(t: Shape, x: WordNode)
    requires Valid(t) && InTree(t, x) && x.id != t.root.id
    ensures InTree(t, x.parent) && t.level[x.id] == t.level[x.parent.id] + 1
    ensures x in x.parent.children
  {
    assert NodeOk(t, x.id);
  }

  lemma DistinctChildren(t: Shape, p: WordNode)
    requires Valid(t) && InTree(t, p)
    ensures forall a, b :: 0 <= a < b < |p.children| ==> p.children[a] != p.children[b]
    ensures DistinctIds(p.children)
  {
    forall a, b | 0 <= a < b < |p.children|
      ensures p.children[a] != p.children[b] && p.children[a].id != p.children[b].id
    {
      assert NodeOk(t, p.id);
      ChildFacts(t, p, a);
      ChildFacts(t, p, b);
    }
  }

  // ---------------------------------------------------------------------------
  // Subtrees, through the parent links
  // ---------------------------------------------------------------------------

  /** The node k parent links above x (null once past the root). */
  function Up(x: WordNode?, k: nat): WordNode?
  {
    if k == 0 || x == null then x else Up(x.parent, k - 1)
  }

  /** x lies in the subtree of v (v itself included). */
  ghost predicate InSub(t: Shape, x: WordNode, v: WordNode)
  {
    && x.id in t.level && v.id in t.level && t.level[x.id] >= t.level[v.id]
    && Up(x, t.level[x.id] - t.level[v.id]) == v
  }

  lemma {:induction false} UpStep(x: WordNode?, k: nat)
    ensures Up(x, k + 1) == (if Up(x, k) == null then null else Up(x, k).parent)
  {
    if k > 0 && x != null {
      UpStep(x.parent, k - 1);
    }
  }

  lemma {:induction false} UpLevel(t: Shape, x: WordNode, k: nat)
    requires Valid(t) && InTree(t, x) && k <= t.level[x.id]
    ensures InTree(t, Up(x, k)) && t.level[Up(x, k).id] == t.level[x.id] - k
  {
    if k > 0 {
      assert x.id != t.root.id;
      ParentFacts(t, x);
      UpLevel(t, x.parent, k - 1);
    }
  }

  /** The only node at level 0 is the root, so every node is in the root's subtree. */
  lemma UnderRoot(t: Shape, x: WordNode)
    requires Valid(t) && InTree(t, x)
    ensures InSub(t, x, t.root)
  {
    var top := Up(x, t.level[x.id]);
    UpLevel(t, x, t.level[x.id]);
    if top.id != t.root.id {
      ParentFacts(t, top);
    }
  }

  lemma ParentInSub(t: Shape, x: WordNode)
    requires Valid(t) && InTree(t, x) && x.id != t.root.id
    ensures InTree(t, x.parent) && InSub(t, x, x.parent)
  {
    ParentFacts(t, x);
  }

  /** Being in the subtree of a child means being in the subtree of its parent. */
  lemma SubTrans(t: Shape, x: WordNode, c: WordNode)
    requires Valid(t) && InTree(t, c) && c.id != t.root.id
    ensures InTree(t, c.parent)
    ensures InSub(t, x, c) ==> InSub(t, x, c.parent)
  {
    ParentFacts(t, c);
    if InSub(t, x, c) {
      UpStep(x, t.level[x.id] - t.level[c.id]);
    }
  }

  /** Two nodes on one level have disjoint subtrees. */
  lemma SubDisjoint(t: Shape, x: WordNode, a: WordNode, b: WordNode)
    requires a.id in t.level && b.id in t.level && t.level[a.id] == t.level[b.id]
    ensures InSub(t, x, a) && InSub(t, x, b) ==> a == b
  {
  }

  /** A node strictly below the child w of v does not have v as its parent. */
  lemma StrictDescParent(t: Shape, x: WordNode, w: WordNode, v: WordNode)
    requires Valid(t) && InTree(t, x) && InTree(t, w) && InTree(t, v)
    requires w.parent == v && t.level[w.id] == t.level[v.id] + 1
    ensures InSub(t, x, w) && x != w ==> x.parent != v && InSub(t, x, v) && x != v
  {
    if InSub(t, x, w) && x != w {
      assert t.level[x.id] > t.level[w.id];
      assert x.id != t.root.id;
      ParentFacts(t, x);
      assert t.level[x.parent.id] != t.level[v.id];
      assert w.id != t.root.id;
      SubTrans(t, x, w);
    }
  }

  /** Below v and not v: below one of v's children. */
  lemma SubChild(t: Shape, x: WordNode, v: WordNode) returns (m: nat)
    requires Valid(t) && InTree(t, x) && InTree(t, v) && InSub(t, x, v) && x != v
    ensures m < |v.children| && InSub(t, x, v.children[m])
  {
    var d := t.level[x.id] - t.level[v.id];
    var c := Up(x, d - 1);
    UpLevel(t, x, d - 1);
    UpStep(x, d - 1);
    assert c.id != t.root.id;
    ParentFacts(t, c);
    m :| 0 <= m < |v.children| && v.children[m] == c;
  }

  // ---------------------------------------------------------------------------
  // Siblings
  // ---------------------------------------------------------------------------

  /** Array.prototype.indexOf: the first position holding x, or -1. */
  function IndexOf(s: seq<WordNode>, x: WordNode): (r: int)
    ensures -1 <= r < |s|
    ensures r >= 0 ==> s[r] == x && forall j :: 0 <= j < r ==> s[j] != x
    ensures r == -1 ==> forall j :: 0 <= j < |s| ==> s[j] != x
  {
    if |s| == 0 then -1
    else if s[0] == x then 0
    else
      var r := IndexOf(s[1..], x);
      if r == -1 then -1 else r + 1
  }

  ghost predicate DistinctIds(cs: seq<WordNode>)
  {
    forall a, b :: 0 <= a < b < |cs| ==> cs[a].id != cs[b].id
  }

  /**
   * getLeftSibling: null for a node without parent; otherwise the sibling
   * just before it. A node missing from its parent's list (indexOf gives -1)
   * reads an undefined entry, which the callers treat as null.
   */
  function GetLeftSibling(node: WordNode): WordNode?
    reads node.parent
  {
    if node.parent == null then null
    else
      var siblings := node.parent.children;
      var index := IndexOf(siblings, node);
      if index <= 0 then null else siblings[index - 1]
  }

  /** getLeftmostSibling: the first child of the node's parent. */
  function GetLeftmostSibling(node: WordNode): WordNode?
    reads node.parent
  {
    if node.parent == null then null
    else if |node.parent.children| > 0 then node.parent.children[0]
    else null
  }

  /** In a valid tree the root has no left sibling, a first child has none, and any other child's is the one before it. */
  lemma LeftSiblingOf(t: Shape, p: WordNode, i: nat)
    requires Valid(t) && InTree(t, p) && i < |p.children|
    ensures p.children[i].parent == p
    ensures GetLeftSibling(p.children[i]) == if i == 0 then null else p.children[i - 1]
    ensures GetLeftmostSibling(p.children[i]) == p.children[0]
    ensures GetLeftSibling(t.root) == null && GetLeftmostSibling(t.root) == null
  {
    ChildFacts(t, p, i);
    DistinctChildren(t, p);
    assert IndexOf(p.children, p.children[i]) == i;
  }

  /** The share a move is divided by, as written: the span from wm to wp counted inclusively. */
  function Subtrees(wm: WordNode, wp: WordNode): int
    reads wm.parent, wp.parent
    requires wm.parent != null && wp.parent != null
  {
    IndexOf(wp.parent.children, wp) - IndexOf(wm.parent.children, wm) + 1
  }

  /** A sibling at or left of the i-th child gives a span of at least one. */
  lemma SpanPositive(t: Shape, p: WordNode, wm: WordNode, i: nat)
    requires Valid(t) && InTree(t, p) && i < |p.children| && wm in p.children[..i + 1]
    ensures wm.parent == p && p.children[i].parent == p
    ensures Subtrees(wm, p.children[i]) >= 1
  {
    var j :| 0 <= j < i + 1 && p.children[..i + 1][j] == wm;
    ChildFacts(t, p, i);
    ChildFacts(t, p, j);
    DistinctChildren(t, p);
    assert IndexOf(p.children, p.children[i]) == i;
    assert IndexOf(p.children, p.children[j]) == j;
  }

  lemma InPrefix(s: seq<WordNode>, x: WordNode, a: nat, b: nat)
    requires a <= b <= |s| && x in s[..a]
    ensures x in s[..b]
  {
    var j :| 0 <= j < a && s[..a][j] == x;
    assert s[..b][j] == x;
  }

  lemma AtPrefixEnd(s: seq<WordNode>, i: nat)
    requires i < |s|
    ensures s[i] in s[..i + 1]
  {
    assert s[..i + 1][i] == s[i];
  }

  // ---------------------------------------------------------------------------
  // The ancestor table during the first walk
  // ---------------------------------------------------------------------------

  /** Every thread leads from a node to a node of the tree one level down. */
  ghost predicate ThreadsOk(t: Shape, thread: map<int, WordNode>)
  {
    forall k | k in thread :: k in t.level && InTree(t, thread[k]) && t.level[thread[k].id] == t.level[k] + 1
  }

  lemma ThreadSet(t: Shape, thread: map<int, WordNode>, k: int, target: WordNode)
    requires ThreadsOk(t, thread) && k in t.level && InTree(t, target) && t.level[target.id] == t.level[k] + 1
    ensures ThreadsOk(t, thread[k := target])
  {
  }

  /** Setting an entry to the i-th child of p keeps the ancestor table's invariants. */
  lemma AncestorSet(t: Shape, anc0: map<int, WordNode>, anc: map<int, WordNode>, k: int, p: WordNode, i: nat)
    requires i < |p.children| && InTree(t, p.children[i]) && p.children[i].parent == p
    requires AllInTree(t, anc) && SiblingsBefore(anc, p, i + 1) && GrowsWith(anc0, anc, p.children[i])
    ensures AllInTree(t, anc[k := p.children[i]]) && SiblingsBefore(anc[k := p.children[i]], p, i + 1)
    ensures GrowsWith(anc0, anc[k := p.children[i]], p.children[i])
  {
    AtPrefixEnd(p.children, i);
  }

  lemma LevelBound(t: Shape, x: WordNode)
    requires Valid(t) && InTree(t, x)
    ensures t.level[x.id] <= t.height
  {
    assert NodeOk(t, x.id);
  }

  ghost predicate AllInTree(t: Shape, anc: map<int, WordNode>)
  {
    forall k | k in anc :: InTree(t, anc[k])
  }

  /** No entry points into the subtree of v: the first walk has not reached it yet. */
  ghost predicate NoneIn(t: Shape, anc: map<int, WordNode>, v: WordNode)
  {
    forall k | k in anc :: !InSub(t, anc[k], v)
  }

  /** No entry points into the subtree of a child of p from the i-th on. */
  ghost predicate NoneInFrom(t: Shape, anc: map<int, WordNode>, p: WordNode, i: nat)
    reads p
  {
    forall k, m | k in anc && i <= m < |p.children| :: !InSub(t, anc[k], p.children[m])
  }

  /** Every entry pointing at a child of p points at one of its first n children. */
  ghost predicate SiblingsBefore(anc: map<int, WordNode>, p: WordNode, n: nat)
    reads p
    requires n <= |p.children|
  {
    forall k | k in anc && anc[k].parent == p :: anc[k] in p.children[..n]
  }

  /** after keeps the entries of before, and any other entry points strictly below v. */
  ghost predicate GrowsUnder(t: Shape, before: map<int, WordNode>, after: map<int, WordNode>, v: WordNode)
  {
    forall k | k in after :: (k in before && after[k] == before[k]) || (InSub(t, after[k], v) && after[k] != v)
  }

  /** after keeps the entries of before, and any other entry points at v. */
  ghost predicate GrowsWith(before: map<int, WordNode>, after: map<int, WordNode>, v: WordNode)
  {
    forall k | k in after :: (k in before && after[k] == before[k]) || after[k] == v
  }

  lemma WalkStart(t: Shape, anc: map<int, WordNode>, v: WordNode)
    requires Valid(t) && InTree(t, v) && AllInTree(t, anc) && NoneIn(t, anc, v)
    ensures SiblingsBefore(anc, v, 0) && NoneInFrom(t, anc, v, 0)
  {
    forall k | k in anc
      ensures anc[k].parent != v
    {
      if anc[k].id != t.root.id {
        ParentInSub(t, anc[k]);
      }
    }
    forall k, m | k in anc && 0 <= m < |v.children|
      ensures !InSub(t, anc[k], v.children[m])
    {
      ChildFacts(t, v, m);
      SubTrans(t, anc[k], v.children[m]);
    }
  }

  lemma AfterChildWalk(t: Shape, a00: map<int, WordNode>, a0: map<int, WordNode>, a1: map<int, WordNode>,
                       v: WordNode, i: nat)
    requires Valid(t) && InTree(t, v) && i < |v.children| && AllInTree(t, a1)
    requires SiblingsBefore(a0, v, i) && NoneInFrom(t, a0, v, i) && GrowsUnder(t, a00, a0, v)
    requires GrowsUnder(t, a0, a1, v.children[i])
    ensures SiblingsBefore(a1, v, i + 1) && NoneInFrom(t, a1, v, i + 1) && GrowsUnder(t, a00, a1, v)
  {
    var w := v.children[i];
    ChildFacts(t, v, i);
    DistinctChildren(t, v);
    forall k | k in a1
      ensures a1[k].parent == v ==> a1[k] in v.children[..i + 1]
      ensures (k in a00 && a1[k] == a00[k]) || (InSub(t, a1[k], v) && a1[k] != v)
    {
      if k in a0 && a1[k] == a0[k] {
        if a1[k].parent == v {
          InPrefix(v.children, a1[k], i, i + 1);
        }
      } else {
        StrictDescParent(t, a1[k], w, v);
      }
    }
    forall k, m | k in a1 && i + 1 <= m < |v.children|
      ensures !InSub(t, a1[k], v.children[m])
    {
      ChildFacts(t, v, m);
      SubDisjoint(t, a1[k], w, v.children[m]);
    }
  }

  lemma AfterApportion(t: Shape, a00: map<int, WordNode>, a1: map<int, WordNode>, a2: map<int, WordNode>,
                       v: WordNode, i: nat)
    requires Valid(t) && InTree(t, v) && i < |v.children|
    requires NoneInFrom(t, a1, v, i + 1) && GrowsUnder(t, a00, a1, v)
    requires GrowsWith(a1, a2, v.children[i])
    ensures NoneInFrom(t, a2, v, i + 1) && GrowsUnder(t, a00, a2, v)
  {
    var w := v.children[i];
    ChildFacts(t, v, i);
    DistinctChildren(t, v);
    ParentInSub(t, w);
    forall k, m | k in a2 && i + 1 <= m < |v.children|
      ensures !InSub(t, a2[k], v.children[m])
    {
      ChildFacts(t, v, m);
      SubDisjoint(t, a2[k], w, v.children[m]);
    }
  }

  // ---------------------------------------------------------------------------
  // Threads and the frame of the first walk
  // ---------------------------------------------------------------------------

  /** The six tables at one moment. */
  datatype Tables = Tables(mod: map<int, real>, thread: map<int, WordNode>, ancestor: map<int, WordNode>,
                           prelim: map<int, real>, change: map<int, real>, shift: map<int, real>)

  /** For every node outside the subtree of v, each table of b holds that node's entry of a. */
  ghost predicate KeptOutside(t: Shape, a: Tables, b: Tables, v: WordNode)
  {
    forall k | k in t.nodes && !InSub(t, t.nodes[k], v) ::
      && Same(a.mod, b.mod, k) && Same(a.thread, b.thread, k) && Same(a.ancestor, b.ancestor, k)
      && Same(a.prelim, b.prelim, k) && Same(a.change, b.change, k) && Same(a.shift, b.shift, k)
  }

  lemma KeptThrough(t: Shape, a: Tables, b: Tables, c: Tables, v: WordNode)
    requires KeptOutside(t, a, b, v) && KeptOutside(t, b, c, v)
    ensures KeptOutside(t, a, c, v)
  {
  }

  /** What is kept outside the subtree of a child is kept outside the subtree of its parent. */
  lemma KeptWider(t: Shape, a: Tables, b: Tables, w: WordNode)
    requires Valid(t) && InTree(t, w) && w.id != t.root.id && KeptOutside(t, a, b, w)
    ensures InTree(t, w.parent) && KeptOutside(t, a, b, w.parent)
  {
    ParentFacts(t, w);
    forall k | k in t.nodes && !InSub(t, t.nodes[k], w.parent)
      ensures !InSub(t, t.nodes[k], w)
    {
      SubTrans(t, t.nodes[k], w);
    }
  }

  /** x lies strictly below p, in the subtree of one of p's first n children. */
  ghost predicate UnderFirst(t: Shape, x: WordNode, p: WordNode, n: nat)
    reads p
    requires n <= |p.children|
  {
    && InSub(t, x, p) && t.level[x.id] > t.level[p.id]
    && Up(x, t.level[x.id] - t.level[p.id] - 1) in p.children[..n]
  }

  /** No node of v's subtree has a thread: the first walk has not reached it yet. */
  ghost predicate NoThreads(t: Shape, thread: map<int, WordNode>, v: WordNode)
  {
    forall k | k in t.nodes && InSub(t, t.nodes[k], v) :: k !in thread
  }

  /** Every thread from a node of v's subtree leads to a node of v's subtree. */
  ghost predicate ThreadsWithin(t: Shape, thread: map<int, WordNode>, v: WordNode)
  {
    forall k | k in t.nodes && k in thread && InSub(t, t.nodes[k], v) :: InSub(t, thread[k], v)
  }

  /** The threads of p's subtree lead from and to nodes under p's first n children. */
  ghost predicate ThreadsUnder(t: Shape, thread: map<int, WordNode>, p: WordNode, n: nat)
    reads p
    requires n <= |p.children|
  {
    forall k | k in t.nodes && k in thread && InSub(t, t.nodes[k], p) ::
      UnderFirst(t, t.nodes[k], p, n) && UnderFirst(t, thread[k], p, n)
  }

  /** Three contour nodes on one level, all under p's first n children. */
  ghost predicate ContoursUnder(t: Shape, p: WordNode, n: nat, vim: WordNode, vip: WordNode, vom: WordNode)
    reads p
    requires n <= |p.children|
  {
    && InTree(t, vim) && InTree(t, vip) && InTree(t, vom)
    && t.level[vim.id] == t.level[vip.id] == t.level[vom.id]
    && UnderFirst(t, vim, p, n) && UnderFirst(t, vip, p, n) && UnderFirst(t, vom, p, n)
  }

  /** One of p's first n children lies under them. */
  lemma PrefixChildUnder(t: Shape, p: WordNode, n: nat, c: WordNode)
    requires Valid(t) && InTree(t, p) && n <= |p.children| && c in p.children[..n]
    ensures InTree(t, c) && c.parent == p && UnderFirst(t, c, p, n)
  {
    var j :| 0 <= j < n && p.children[..n][j] == c;
    ChildFacts(t, p, j);
  }

  /** The children of a node under p's first n children are under them too. */
  lemma ChildUnder(t: Shape, p: WordNode, n: nat, x: WordNode, j: nat)
    requires Valid(t) && InTree(t, x) && n <= |p.children| && UnderFirst(t, x, p, n) && j < |x.children|
    ensures UnderFirst(t, x.children[j], p, n)
  {
    ChildFacts(t, x, j);
  }

  /** The subtree of the i-th child of v lies under v's first i + 1 children and not under the first i. */
  lemma SubFirst(t: Shape, v: WordNode, i: nat, x: WordNode)
    requires Valid(t) && InTree(t, v) && i < |v.children| && InSub(t, x, v.children[i])
    ensures UnderFirst(t, x, v, i + 1) && !UnderFirst(t, x, v, i)
  {
    var w := v.children[i];
    ChildFacts(t, v, i);
    SubTrans(t, x, w);
    AtPrefixEnd(v.children, i);
    DistinctChildren(t, v);
    assert forall j | 0 <= j < i :: v.children[..i][j] == v.children[j];
  }

  /** Before the i-th child of v is walked, no node of its subtree has a thread. */
  lemma NotYetWalked(t: Shape, thread: map<int, WordNode>, v: WordNode, i: nat)
    requires Valid(t) && InTree(t, v) && i < |v.children| && ThreadsUnder(t, thread, v, i)
    ensures NoThreads(t, thread, v.children[i])
  {
    forall k | k in t.nodes && InSub(t, t.nodes[k], v.children[i])
      ensures k !in thread
    {
      SubFirst(t, v, i, t.nodes[k]);
    }
  }

  /**
   * After the i-th child of v is walked, its threads stay in its subtree and
   * nothing outside it changed, so the threads of v's subtree stay under its
   * first i + 1 children and nothing outside v's subtree changed.
   */
  lemma AfterChildThreads(t: Shape, a: Tables, b: Tables, v: WordNode, i: nat)
    requires Valid(t) && InTree(t, v) && i < |v.children|
    requires ThreadsUnder(t, a.thread, v, i) && ThreadsWithin(t, b.thread, v.children[i])
    requires KeptOutside(t, a, b, v.children[i])
    ensures ThreadsUnder(t, b.thread, v, i + 1) && KeptOutside(t, a, b, v)
  {
    var w := v.children[i];
    ChildFacts(t, v, i);
    forall k | k in t.nodes && k in b.thread && InSub(t, t.nodes[k], v)
      ensures UnderFirst(t, t.nodes[k], v, i + 1) && UnderFirst(t, b.thread[k], v, i + 1)
    {
      var x := t.nodes[k];
      if InSub(t, x, w) {
        SubFirst(t, v, i, x);
        SubFirst(t, v, i, b.thread[k]);
      } else {
        var y := a.thread[k];
        InPrefix(v.children, Up(x, t.level[x.id] - t.level[v.id] - 1), i, i + 1);
        InPrefix(v.children, Up(y, t.level[y.id] - t.level[v.id] - 1), i, i + 1);
      }
    }
    KeptWider(t, a, b, w);
  }

  /** Re-pointing one thread of a node under p's first n children to another keeps the threads there. */
  lemma ThreadsUnderSet(t: Shape, thread: map<int, WordNode>, p: WordNode, n: nat, x: WordNode, target: WordNode)
    requires n <= |p.children| && InTree(t, x)
    requires ThreadsUnder(t, thread, p, n) && UnderFirst(t, x, p, n) && UnderFirst(t, target, p, n)
    ensures ThreadsUnder(t, thread[x.id := target], p, n)
  {
  }

  /** Setting the thread and mod of one node of v's subtree keeps every entry outside it. */
  lemma ThreadKept(t: Shape, a: Tables, v: WordNode, y: WordNode, target: WordNode, m: real)
    requires InTree(t, y) && InSub(t, y, v)
    ensures KeptOutside(t, a, a.(thread := a.thread[y.id := target], mod := a.mod[y.id := m]), v)
  {
  }

  /** Setting the ancestor entry of one node of v's subtree keeps every entry outside it. */
  lemma AncestorKept(t: Shape, a: Tables, v: WordNode, y: WordNode, target: WordNode)
    requires InTree(t, y) && InSub(t, y, v)
    ensures KeptOutside(t, a, a.(ancestor := a.ancestor[y.id := target]), v)
  {
  }

  /** The entries moveSubtree writes, for wp and wm of v's subtree, keep every entry outside it. */
  lemma MoveKept(t: Shape, a: Tables, v: WordNode, wm: WordNode, wp: WordNode,
                 prelim: real, mod: real, shift: real, changeP: real, changeM: real)
    requires InTree(t, wm) && InSub(t, wm, v) && InTree(t, wp) && InSub(t, wp, v)
    ensures KeptOutside(t, a, a.(prelim := a.prelim[wp.id := prelim], mod := a.mod[wp.id := mod],
                                 shift := a.shift[wp.id := shift],
                                 change := a.change[wp.id := changeP][wm.id := changeM]), v)
  {
  }

  /** The tables executeShifts leaves for v agree with the old ones outside v's subtree. */
  lemma ShiftsKeptAll(t: Shape, v: WordNode, a: Tables)
    requires Valid(t) && InTree(t, v)
    ensures var add := Added(Entries(a.change, v.children), Entries(a.shift, v.children));
            KeptOutside(t, a, a.(prelim := Bumped(a.prelim, v.children, add, 0),
                                 mod := Bumped(a.mod, v.children, add, 0)), v)
  {
    var add := Added(Entries(a.change, v.children), Entries(a.shift, v.children));
    forall k | k in t.nodes && !InSub(t, t.nodes[k], v)
      ensures Same(a.prelim, Bumped(a.prelim, v.children, add, 0), k)
      ensures Same(a.mod, Bumped(a.mod, v.children, add, 0), k)
    {
      ShiftsKept(t, v, a.prelim, add, k);
      ShiftsKept(t, v, a.mod, add, k);
    }
  }

  /** Growing the entries of v's children (executeShifts) keeps every entry outside v's subtree. */
  lemma ShiftsKept(t: Shape, v: WordNode, m: map<int, real>, add: seq<real>, k: int)
    requires Valid(t) && InTree(t, v) && k in t.nodes && !InSub(t, t.nodes[k], v) && |add| == |v.children|
    ensures Same(m, Bumped(m, v.children, add, 0), k)
  {
    forall j | 0 <= j < |v.children|
      ensures v.children[j].id != k
    {
      ChildFacts(t, v, j);
      ParentInSub(t, v.children[j]);
    }
    BumpedOutside(m, v.children, add, 0, k);
  }

  // ---------------------------------------------------------------------------
  // The layout tables and the two walks
  // ---------------------------------------------------------------------------

  class Layout {
    var mod: map<int, real>
    var thread: map<int, WordNode>
    var ancestor: map<int, WordNode>
    var prelim: map<int, real>
    var change: map<int, real>
    var shift: map<int, real>

    /** The six empty tables: every lookup gives its default. */
    constructor()
      ensures mod == map[] && thread == map[] && ancestor == map[]
      ensures prelim == map[] && change == map[] && shift == map[]
      ensures forall n: WordNode :: GetMod(n) == 0.0 && GetPrelim(n) == 0.0
      ensures forall n: WordNode :: GetChange(n) == 0.0 && GetShift(n) == 0.0
      ensures forall n: WordNode :: GetThread(n) == null && GetAncestor(n) == n
    {
      mod := map[];
      thread := map[];
      ancestor := map[];
      prelim := map[];
      change := map[];
      shift := map[];
    }

    function GetMod(node: WordNode): real
      reads this
    {
      if node.id in mod then mod[node.id] else 0.0
    }

    function GetThread(node: WordNode): WordNode?
      reads this
    {
      if node.id in thread then thread[node.id] else null
    }

    function GetAncestor(node: WordNode): WordNode
      reads this
    {
      if node.id in ancestor then ancestor[node.id] else node
    }

    function GetPrelim(node: WordNode): real
      reads this
    {
      if node.id in prelim then prelim[node.id] else 0.0
    }

    function GetChange(node: WordNode): real
      reads this
    {
      if node.id in change then change[node.id] else 0.0
    }

    function GetShift(node: WordNode): real
      reads this
    {
      if node.id in shift then shift[node.id] else 0.0
    }

    ghost function Snapshot(): Tables
      reads this
    {
      Tables(mod, thread, ancestor, prelim, change, shift)
    }

    /** getNextLeft: the next node down the left contour. */
    function GetNextLeft(v: WordNode): WordNode?
      reads this, v
    {
      if |v.children| > 0 then v.children[0] else GetThread(v)
    }

    /** getNextRight: the next node down the right contour. */
    function GetNextRight(v: WordNode): WordNode?
      reads this, v
    {
      if |v.children| > 0 then v.children[|v.children| - 1] else GetThread(v)
    }

    /** ancestorFunction: vim's recorded ancestor when it is a sibling of v, else the default ancestor. */
    function AncestorFunction(vim: WordNode, v: WordNode, defaultAncestor: WordNode): WordNode
      reads this
    {
      var a := GetAncestor(vim);
      if a.parent == v.parent then a else defaultAncestor
    }

    /** Threads lead one level down to a node of the tree; ancestor entries are nodes of the tree. */
    ghost predicate Inv(t: Shape)
      reads this
    {
      ThreadsOk(t, thread) && AllInTree(t, ancestor)
    }

    /** Both contour steps go one level down and stay in the tree. */
    lemma NextDeeper(t: Shape, n: WordNode)
      requires Valid(t) && ThreadsOk(t, thread) && InTree(t, n)
      ensures GetNextLeft(n) != null ==>
                InTree(t, GetNextLeft(n)) && t.level[GetNextLeft(n).id] == t.level[n.id] + 1 <= t.height
      ensures GetNextRight(n) != null ==>
                InTree(t, GetNextRight(n)) && t.level[GetNextRight(n).id] == t.level[n.id] + 1 <= t.height
    {
      if |n.children| > 0 {
        ChildFacts(t, n, 0);
        ChildFacts(t, n, |n.children| - 1);
      } else if n.id in thread {
        LevelBound(t, thread[n.id]);
      }
    }

    /** Both contour steps from a node under p's first n children stay under them. */
    lemma NextUnder(t: Shape, p: WordNode, n: nat, x: WordNode)
      requires Valid(t) && InTree(t, x) && n <= |p.children|
      requires ThreadsUnder(t, thread, p, n) && UnderFirst(t, x, p, n)
      ensures GetNextLeft(x) != null ==> UnderFirst(t, GetNextLeft(x), p, n)
      ensures GetNextRight(x) != null ==> UnderFirst(t, GetNextRight(x), p, n)
    {
      if |x.children| > 0 {
        ChildUnder(t, p, n, x, 0);
        ChildUnder(t, p, n, x, |x.children| - 1);
      }
    }

    /** The node apportion moves from is a sibling at or left of v. */
    lemma AncestorChoice(t: Shape, vim: WordNode, v: WordNode, defaultAncestor: WordNode, i: nat)
      requires Valid(t) && AllInTree(t, ancestor) && InTree(t, vim) && InTree(t, v)
      requires v.parent != null && i < |v.parent.children| && v.parent.children[i] == v
      requires t.level[vim.id] > t.level[v.id]
      requires defaultAncestor in v.parent.children[..i + 1]
      requires SiblingsBefore(ancestor, v.parent, i + 1)
      ensures AncestorFunction(vim, v, defaultAncestor) in v.parent.children[..i + 1]
    {
      if vim.id !in ancestor {
        assert vim.id != t.root.id;
        ParentFacts(t, vim);
        assert v.id != t.root.id;
        ParentFacts(t, v);
        assert t.level[vim.parent.id] != t.level[v.parent.id];
      }
    }

    /**
     * moveSubtree: wp and its subtree move right by s (prelim, mod and shift
     * of wp grow by s), and s divided by the span is taken from wp's change
     * and given to wm's, for executeShifts to spread over the siblings in
     * between. Nothing else changes.
     */
    method MoveSubtree(wm: WordNode, wp: WordNode, s: real)
      requires wm.parent != null && wp.parent != null
      requires Subtrees(wm, wp) != 0
      modifies this
      ensures prelim == old(prelim)[wp.id := old(GetPrelim(wp)) + s]
      ensures mod == old(mod)[wp.id := old(GetMod(wp)) + s]
      ensures shift == old(shift)[wp.id := old(GetShift(wp)) + s]
      ensures change == old(change)[wp.id := old(GetChange(wp)) - s / Subtrees(wm, wp) as real]
                                   [wm.id := (if wm.id == wp.id then old(GetChange(wp)) - s / Subtrees(wm, wp) as real
                                              else old(GetChange(wm))) + s / Subtrees(wm, wp) as real]
      ensures thread == old(thread) && ancestor == old(ancestor)
    {
      var subtrees := Subtrees(wm, wp) as real;
      var newChange := change[wp.id := GetChange(wp) - s / subtrees];
      var newShift := shift[wp.id := GetShift(wp) + s];
      newChange := newChange[wm.id := Get(newChange, wm.id) + s / subtrees];
      var newPrelim := prelim[wp.id := GetPrelim(wp) + s];
      var newMod := mod[wp.id := GetMod(wp) + s];
      change, shift, prelim, mod := newChange, newShift, newPrelim, newMod;
    }

    /**
     * executeShifts: walking v's children from the last to the first, each
     * child's prelim and mod grow by the running total s, where s gathers
     * the shifts and the running sum c of the changes seen so far, so child x
     * moves by Running(changes, shifts, x + 1).0 (BumpedEntries states this
     * entry by entry). The change and shift entries are only read.
     */
    method ExecuteShifts(v: WordNode)
      requires DistinctIds(v.children)
      modifies this
      ensures prelim == Bumped(old(prelim), v.children, Added(Entries(old(change), v.children), Entries(old(shift), v.children)), 0)
      ensures mod == Bumped(old(mod), v.children, Added(Entries(old(change), v.children), Entries(old(shift), v.children)), 0)
      ensures change == old(change) && shift == old(shift)
      ensures thread == old(thread) && ancestor == old(ancestor)
    {
      prelim, mod := ShiftRow(v.children, change, shift, prelim, mod);
    }

    /**
     * firstWalk: lays out the subtree of v bottom-up. A leaf takes its left
     * sibling's prelim plus one, and keeps its prelim when it has no left
     * sibling. An internal node, once its children are walked, apportioned
     * and shifted, takes its left sibling's prelim plus one with a mod that
     * centres it over the midpoint of its first and last child; without a
     * left sibling it sits at that midpoint. Only the entries of nodes in
     * v's subtree change, so the left sibling v is placed against keeps its
     * prelim; every ancestor entry it adds points strictly inside v's
     * subtree, and every thread it adds leads from and to nodes there.
     */
    method FirstWalk(v: WordNode, ghost t: Shape)
      requires Valid(t) && InTree(t, v) && Inv(t) && NoneIn(t, ancestor, v) && NoThreads(t, thread, v)
      modifies this
      ensures Inv(t) && GrowsUnder(t, old(ancestor), ancestor, v)
      ensures ThreadsWithin(t, thread, v) && KeptOutside(t, old(Snapshot()), Snapshot(), v)
      ensures |v.children| == 0 ==>
                && mod == old(mod) && thread == old(thread) && ancestor == old(ancestor)
                && change == old(change) && shift == old(shift)
                && prelim == (if GetLeftSibling(v) == null then old(prelim)
                              else old(prelim)[v.id := old(GetPrelim(GetLeftSibling(v))) + 1.0])
      ensures |v.children| > 0 ==>
                var midpoint := (GetPrelim(v.children[0]) + GetPrelim(v.children[|v.children| - 1])) / 2.0;
                && (GetLeftSibling(v) != null ==>
                      GetPrelim(v) == GetPrelim(GetLeftSibling(v)) + 1.0 && GetMod(v) == GetPrelim(v) - midpoint)
                && (GetLeftSibling(v) == null ==> GetPrelim(v) == midpoint)
      decreases t.height - t.level[v.id], 2
    {
      LeftSiblingFacts(t, v);
      if |v.children| == 0 {
        var leftSibling := GetLeftSibling(v);
        if leftSibling != null {
          prelim := prelim[v.id := GetPrelim(leftSibling) + 1.0];
        }
        return;
      }

      WalkChildren(v, t);
      DistinctChildren(t, v);
      ghost var walked := Snapshot();
      ExecuteShifts(v);
      ShiftsKeptAll(t, v, walked);
      ghost var shifted := Snapshot();
      KeptThrough(t, old(Snapshot()), walked, shifted, v);
      Center(v, t);
      KeptThrough(t, old(Snapshot()), shifted, Snapshot(), v);
    }

    /**
     * The end of firstWalk for a node with children: v is placed one unit to
     * the right of its left sibling, with a mod that centres it over the
     * midpoint of its first and last child, or at that midpoint when it has
     * no left sibling. Only v's prelim and mod change.
     */
    method Center(v: WordNode, ghost t: Shape)
      requires Valid(t) && InTree(t, v) && |v.children| > 0
      modifies this
      ensures thread == old(thread) && ancestor == old(ancestor)
      ensures change == old(change) && shift == old(shift)
      ensures var midpoint := (old(GetPrelim(v.children[0])) + old(GetPrelim(v.children[|v.children| - 1]))) / 2.0;
              && (GetLeftSibling(v) != null ==>
                    && prelim == old(prelim)[v.id := old(GetPrelim(GetLeftSibling(v))) + 1.0]
                    && mod == old(mod)[v.id := old(GetPrelim(GetLeftSibling(v))) + 1.0 - midpoint])
              && (GetLeftSibling(v) == null ==> prelim == old(prelim)[v.id := midpoint] && mod == old(mod))
      ensures KeptOutside(t, old(Snapshot()), Snapshot(), v)
      ensures var midpoint := (GetPrelim(v.children[0]) + GetPrelim(v.children[|v.children| - 1])) / 2.0;
              && (GetLeftSibling(v) != null ==>
                    GetPrelim(v) == GetPrelim(GetLeftSibling(v)) + 1.0 && GetMod(v) == GetPrelim(v) - midpoint)
              && (GetLeftSibling(v) == null ==> GetPrelim(v) == midpoint)
    {
      LeftSiblingFacts(t, v);
      var midpoint := (GetPrelim(v.children[0]) + GetPrelim(v.children[|v.children| - 1])) / 2.0;
      var leftSibling := GetLeftSibling(v);
      ChildFacts(t, v, 0);
      ChildFacts(t, v, |v.children| - 1);
      if leftSibling != null {
        prelim := prelim[v.id := GetPrelim(leftSibling) + 1.0];
        mod := mod[v.id := GetPrelim(v) - midpoint];
      } else {
        prelim := prelim[v.id := midpoint];
      }
    }

    /**
     * The loop of firstWalk over v's children, left to right: each child is
     * laid out, then apportioned against its left siblings, with the default
     * ancestor carried from one child to the next. Only the entries of
     * nodes in v's subtree change, and its threads stay inside it.
     */
    method WalkChildren(v: WordNode, ghost t: Shape)
      requires Valid(t) && InTree(t, v) && |v.children| > 0
      requires ThreadsOk(t, thread) && AllInTree(t, ancestor) && NoneIn(t, ancestor, v)
      requires NoThreads(t, thread, v)
      modifies this
      ensures ThreadsOk(t, thread) && AllInTree(t, ancestor)
      ensures GrowsUnder(t, old(ancestor), ancestor, v)
      ensures ThreadsWithin(t, thread, v) && KeptOutside(t, old(Snapshot()), Snapshot(), v)
      decreases t.height - t.level[v.id], 1
    {
      DistinctChildren(t, v);
      WalkStart(t, ancestor, v);
      var defaultAncestor := v.children[0];
      AtPrefixEnd(v.children, 0);
      var i := 0;
      while i < |v.children|
        invariant 0 <= i <= |v.children|
        invariant ThreadsOk(t, thread) && AllInTree(t, ancestor)
        invariant i < |v.children| ==> defaultAncestor in v.children[..i + 1]
        invariant SiblingsBefore(ancestor, v, i) && NoneInFrom(t, ancestor, v, i)
        invariant GrowsUnder(t, old(ancestor), ancestor, v)
        invariant ThreadsUnder(t, thread, v, i) && KeptOutside(t, old(Snapshot()), Snapshot(), v)
      {
        ghost var before := Snapshot();
        defaultAncestor := WalkChild(v, i, defaultAncestor, t, old(ancestor));
        KeptThrough(t, old(Snapshot()), before, Snapshot(), v);
        i := i + 1;
      }
    }

    /**
     * One turn of the loop of firstWalk: the i-th child w is laid out, then
     * apportioned against its left siblings; the default ancestor handed to
     * the next turn is the old one or w.
     */
    method WalkChild(v: WordNode, i: nat, defaultAncestor: WordNode, ghost t: Shape, ghost a00: map<int, WordNode>)
      returns (next: WordNode)
      requires Valid(t) && InTree(t, v) && i < |v.children|
      requires ThreadsOk(t, thread) && AllInTree(t, ancestor)
      requires defaultAncestor in v.children[..i + 1]
      requires SiblingsBefore(ancestor, v, i) && NoneInFrom(t, ancestor, v, i) && GrowsUnder(t, a00, ancestor, v)
      requires ThreadsUnder(t, thread, v, i)
      modifies this
      ensures ThreadsOk(t, thread) && AllInTree(t, ancestor)
      ensures ThreadsUnder(t, thread, v, i + 1) && KeptOutside(t, old(Snapshot()), Snapshot(), v)
      ensures next == defaultAncestor || next == v.children[i]
      ensures i + 1 < |v.children| ==> next in v.children[..i + 2]
      ensures SiblingsBefore(ancestor, v, i + 1) && NoneInFrom(t, ancestor, v, i + 1) && GrowsUnder(t, a00, ancestor, v)
      decreases t.height - t.level[v.id], 0
    {
      var w := v.children[i];
      ChildFacts(t, v, i);
      ghost var a0 := ancestor;
      NotYetWalked(t, thread, v, i);
      FirstWalk(w, t);
      AfterChildWalk(t, a00, a0, ancestor, v, i);
      AfterChildThreads(t, old(Snapshot()), Snapshot(), v, i);
      ghost var a1 := ancestor;
      ghost var walked := Snapshot();
      next := Apportion(w, defaultAncestor, t, i);
      AfterApportion(t, a00, a1, ancestor, v, i);
      KeptThrough(t, old(Snapshot()), walked, Snapshot(), v);
      if i + 1 < |v.children| {
        AtPrefixEnd(v.children, i);
        InPrefix(v.children, next, i + 1, i + 2);
      }
    }

    /** v's left sibling, when it has one, is another node of the tree. */
    lemma LeftSiblingFacts(t: Shape, v: WordNode)
      requires Valid(t) && InTree(t, v)
      ensures GetLeftSibling(v) != null ==> InTree(t, GetLeftSibling(v)) && GetLeftSibling(v).id != v.id
    {
      if v.id != t.root.id {
        ParentFacts(t, v);
        var p := v.parent;
        var i := IndexOf(p.children, v);
        LeftSiblingOf(t, p, i);
        if i > 0 {
          ChildFacts(t, p, i - 1);
          DistinctChildren(t, p);
        }
      }
    }

    /**
     * apportion: when v has a left sibling, walks down the right contour of
     * the subtrees to v's left (vim) and the left contour of v's subtree
     * (vip) together; wherever they come closer than one unit, v's subtree is
     * moved right by the gap, from the sibling ancestorFunction picks. As
     * written, vom and vop advance along with vim and vip. Afterwards a
     * thread continues the shorter contour. The result is the default
     * ancestor for the next sibling: v when the left forest ended first,
     * otherwise the one passed in. Every ancestor entry it writes points at
     * v; without a left sibling nothing changes. Both contours stay under
     * v and its left siblings, so only their entries change.
     */
    method Apportion(v: WordNode, defaultAncestor: WordNode, ghost t: Shape, ghost i: nat) returns (r: WordNode)
      requires Valid(t) && Inv(t) && InTree(t, v)
      requires v.parent != null && i < |v.parent.children| && v.parent.children[i] == v
      requires defaultAncestor in v.parent.children[..i + 1]
      requires SiblingsBefore(ancestor, v.parent, i + 1) && ThreadsUnder(t, thread, v.parent, i + 1)
      modifies this
      ensures Inv(t) && SiblingsBefore(ancestor, v.parent, i + 1)
      ensures ThreadsUnder(t, thread, v.parent, i + 1) && KeptOutside(t, old(Snapshot()), Snapshot(), v.parent)
      ensures r == defaultAncestor || r == v
      ensures GrowsWith(old(ancestor), ancestor, v)
      ensures i == 0 ==> r == defaultAncestor && unchanged(this)
    {
      var p := v.parent;
      assert v.id != t.root.id;
      ParentFacts(t, v);
      LeftSiblingOf(t, p, i);
      r := defaultAncestor;
      var w := GetLeftSibling(v);
      if w != null {
        ChildFacts(t, p, i);
        var threaded := WalkContours(v, w, defaultAncestor, t, i);
        if threaded {
          r := v;
        }
      }
    }

    /**
     * One turn of apportion's contour loop: vim and vip step one level down
     * their contours (vom and vop follow in the caller), vip's ancestor entry
     * becomes v, and ContourStep moves v's subtree when the contours come
     * closer than one unit; the result includes the gap moved, or 0.
     */
    method ContourTurn(v: WordNode, vim: WordNode, vip: WordNode, defaultAncestor: WordNode, sim: real, sip: real,
                       ghost t: Shape, ghost i: nat, ghost anc0: map<int, WordNode>)
      returns (nextVim: WordNode, nextVip: WordNode, moved: real)
      requires Valid(t) && Inv(t) && InTree(t, v) && InTree(t, vim) && InTree(t, vip)
      requires v.parent != null && i < |v.parent.children| && v.parent.children[i] == v
      requires defaultAncestor in v.parent.children[..i + 1]
      requires t.level[vim.id] == t.level[vip.id] >= t.level[v.id]
      requires GetNextRight(vim) != null && GetNextLeft(vip) != null
      requires SiblingsBefore(ancestor, v.parent, i + 1) && GrowsWith(anc0, ancestor, v)
      requires ThreadsUnder(t, thread, v.parent, i + 1)
      requires UnderFirst(t, vim, v.parent, i + 1) && UnderFirst(t, vip, v.parent, i + 1)
      modifies this
      ensures nextVim == old(GetNextRight(vim)) && nextVip == old(GetNextLeft(vip))
      ensures InTree(t, nextVim) && InTree(t, nextVip)
      ensures t.level[nextVim.id] == t.level[nextVip.id] == t.level[vim.id] + 1 <= t.height
      ensures UnderFirst(t, nextVim, v.parent, i + 1) && UnderFirst(t, nextVip, v.parent, i + 1)
      ensures ancestor == old(ancestor)[nextVip.id := v] && thread == old(thread)
      ensures var gap := (old(GetPrelim(nextVim)) + sim) - (old(GetPrelim(nextVip)) + sip) + 1.0;
              moved == if gap > 0.0 then gap else 0.0
      ensures Inv(t) && SiblingsBefore(ancestor, v.parent, i + 1) && GrowsWith(anc0, ancestor, v)
      ensures KeptOutside(t, old(Snapshot()), Snapshot(), v.parent)
    {
      var p := v.parent;
      NextDeeper(t, vim);
      NextDeeper(t, vip);
      NextUnder(t, p, i + 1, vim);
      NextUnder(t, p, i + 1, vip);
      nextVim := GetNextRight(vim);
      nextVip := GetNextLeft(vip);
      AncestorSet(t, anc0, ancestor, nextVip.id, p, i);
      ghost var stepped := Snapshot();
      ancestor := ancestor[nextVip.id := v];
      AncestorKept(t, stepped, p, nextVip, v);
      ghost var marked := Snapshot();
      var wm;
      moved, wm := ContourStep(v, nextVim, nextVip, defaultAncestor, sim, sip, t, i);
      KeptThrough(t, stepped, marked, Snapshot(), p);
    }

    /** The sibling a move starts from is, like v, a child of v's parent at or left of v. */
    lemma MoveFrom(t: Shape, vim: WordNode, v: WordNode, defaultAncestor: WordNode, i: nat)
      requires Valid(t) && AllInTree(t, ancestor) && InTree(t, v) && InTree(t, vim)
      requires v.parent != null && i < |v.parent.children| && v.parent.children[i] == v
      requires defaultAncestor in v.parent.children[..i + 1]
      requires SiblingsBefore(ancestor, v.parent, i + 1) && t.level[vim.id] > t.level[v.id]
      ensures var wm := AncestorFunction(vim, v, defaultAncestor);
              && wm in v.parent.children[..i + 1] && wm.parent == v.parent && Subtrees(wm, v) >= 1
              && InTree(t, wm) && InSub(t, wm, v.parent) && InSub(t, v, v.parent)
    {
      var p := v.parent;
      assert v.id != t.root.id;
      ParentFacts(t, v);
      AncestorChoice(t, vim, v, defaultAncestor, i);
      var wm := AncestorFunction(vim, v, defaultAncestor);
      SpanPositive(t, p, wm, i);
      PrefixChildUnder(t, p, i + 1, wm);
      AtPrefixEnd(p.children, i);
      PrefixChildUnder(t, p, i + 1, v);
    }

    /**
     * The move in one turn of apportion's contour loop: when the contours at
     * vim and vip come closer than one unit, v's subtree moves right by the
     * gap, from the sibling wm that ancestorFunction picks. The result is the
     * gap moved, or 0 when there is none.
     */
    method ContourStep(v: WordNode, vim: WordNode, vip: WordNode, defaultAncestor: WordNode, sim: real, sip: real,
                       ghost t: Shape, ghost i: nat) returns (moved: real, wm: WordNode)
      requires Valid(t) && AllInTree(t, ancestor) && InTree(t, v) && InTree(t, vim)
      requires v.parent != null && i < |v.parent.children| && v.parent.children[i] == v
      requires defaultAncestor in v.parent.children[..i + 1]
      requires SiblingsBefore(ancestor, v.parent, i + 1) && t.level[vim.id] > t.level[v.id]
      modifies this
      ensures thread == old(thread) && ancestor == old(ancestor)
      ensures var gap := (old(GetPrelim(vim)) + sim) - (old(GetPrelim(vip)) + sip) + 1.0;
              moved == if gap > 0.0 then gap else 0.0
      ensures moved == 0.0 ==>
                prelim == old(prelim) && mod == old(mod) && change == old(change) && shift == old(shift)
      ensures moved != 0.0 ==>
                && wm == old(AncestorFunction(vim, v, defaultAncestor))
                && wm in v.parent.children[..i + 1] && wm.parent == v.parent && Subtrees(wm, v) >= 1
                && prelim == old(prelim)[v.id := old(GetPrelim(v)) + moved]
                && mod == old(mod)[v.id := old(GetMod(v)) + moved]
                && shift == old(shift)[v.id := old(GetShift(v)) + moved]
                && change == old(change)[v.id := old(GetChange(v)) - moved / Subtrees(wm, v) as real]
                                        [wm.id := (if wm.id == v.id then old(GetChange(v)) - moved / Subtrees(wm, v) as real
                                                   else old(GetChange(wm))) + moved / Subtrees(wm, v) as real]
      ensures KeptOutside(t, old(Snapshot()), Snapshot(), v.parent)
    {
      var p := v.parent;
      moved := 0.0;
      wm := defaultAncestor;
      var gap := (GetPrelim(vim) + sim) - (GetPrelim(vip) + sip) + 1.0;
      if gap > 0.0 {
        MoveFrom(t, vim, v, defaultAncestor, i);
        wm := AncestorFunction(vim, v, defaultAncestor);
        ghost var before := Snapshot();
        MoveSubtree(wm, v, gap);
        MoveKept(t, before, p, wm, v, prelim[v.id], mod[v.id], shift[v.id], change[v.id], change[wm.id]);
        moved := gap;
      }
    }

    /**
     * The contour loop of apportion, for v with left sibling w: vim follows
     * the right contour of the subtrees to v's left and vip the left contour
     * of v's subtree, one level per turn, and vom and vop, as written, take
     * the same nodes; the sums are those of the mods met, with each move
     * added to sip and sop. Each node vip steps to gets v as its ancestor
     * entry. When one contour ends, ThreadEnds threads the shorter one and
     * the result says whether the left forest ended first. Only entries of
     * nodes under v and its left siblings change.
     */
    method WalkContours(v: WordNode, w: WordNode, defaultAncestor: WordNode, ghost t: Shape, ghost i: nat)
      returns (threaded: bool)
      requires Valid(t) && Inv(t) && InTree(t, v)
      requires v.parent != null && 0 < i < |v.parent.children| && v.parent.children[i] == v
      requires w == v.parent.children[i - 1]
      requires defaultAncestor in v.parent.children[..i + 1]
      requires SiblingsBefore(ancestor, v.parent, i + 1) && ThreadsUnder(t, thread, v.parent, i + 1)
      modifies this
      ensures Inv(t) && SiblingsBefore(ancestor, v.parent, i + 1) && GrowsWith(old(ancestor), ancestor, v)
      ensures ThreadsUnder(t, thread, v.parent, i + 1) && KeptOutside(t, old(Snapshot()), Snapshot(), v.parent)
    {
      var p := v.parent;
      assert v.id != t.root.id;
      ParentFacts(t, v);
      LeftSiblingOf(t, p, i);
      var vip := v;
      var vop := v;
      var vim := w;
      var vom: WordNode := GetLeftmostSibling(vip);
      ChildFacts(t, p, i - 1);
      ChildFacts(t, p, 0);
      ChildFacts(t, p, i);
      AtPrefixEnd(p.children, i);
      AtPrefixEnd(p.children, i - 1);
      InPrefix(p.children, vim, i, i + 1);
      InPrefix(p.children, vom, 1, i + 1);
      PrefixChildUnder(t, p, i + 1, v);
      PrefixChildUnder(t, p, i + 1, vim);
      PrefixChildUnder(t, p, i + 1, vom);
      var sip := GetMod(vip);
      var sop := GetMod(vop);
      var sim := GetMod(vim);
      var som := GetMod(vom);

      var nextRight := GetNextRight(vim);
      var nextLeft := GetNextLeft(vip);
      while nextRight != null && nextLeft != null
        invariant InTree(t, vim) && InTree(t, vip) && InTree(t, vom) && vop == vip
        invariant t.level[vim.id] == t.level[vip.id] == t.level[vom.id] >= t.level[v.id]
        invariant t.level[vim.id] <= t.height
        invariant nextRight == GetNextRight(vim) && nextLeft == GetNextLeft(vip)
        invariant ThreadsOk(t, thread) && AllInTree(t, ancestor) && SiblingsBefore(ancestor, p, i + 1)
        invariant GrowsWith(old(ancestor), ancestor, v)
        invariant UnderFirst(t, vim, p, i + 1) && UnderFirst(t, vip, p, i + 1) && UnderFirst(t, vom, p, i + 1)
        invariant thread == old(thread) && KeptOutside(t, old(Snapshot()), Snapshot(), p)
        decreases t.height - t.level[vim.id]
      {
        ghost var stepped := Snapshot();
        var moved;
        vim, vip, moved := ContourTurn(v, vim, vip, defaultAncestor, sim, sip, t, i, old(ancestor));
        KeptThrough(t, old(Snapshot()), stepped, Snapshot(), p);
        vom := vim;
        vop := vip;
        sip := sip + moved;
        sop := sop + moved;
        sim := sim + GetMod(vim);
        sip := sip + GetMod(vip);
        som := som + GetMod(vom);
        sop := sop + GetMod(vop);
        nextRight := GetNextRight(vim);
        nextLeft := GetNextLeft(vip);
      }

      ghost var looped := Snapshot();
      threaded := ThreadEnds(p, vim, vip, vom, sim, sip, som, sop, t, i + 1);
      KeptThrough(t, old(Snapshot()), looped, Snapshot(), p);
    }

    /**
     * The end of apportion: first the deepest node vop (== vip) of the right
     * contour, then the deepest node vom of the left contour may get a
     * thread; the result says whether vom did. Both threads lead between
     * nodes under p's first n children, and only those nodes' entries change.
     */
    method ThreadEnds(p: WordNode, vim: WordNode, vip: WordNode, vom: WordNode,
                      sim: real, sip: real, som: real, sop: real, ghost t: Shape, ghost n: nat) returns (threaded: bool)
      requires Valid(t) && ThreadsOk(t, thread) && n <= |p.children|
      requires ThreadsUnder(t, thread, p, n) && ContoursUnder(t, p, n, vim, vip, vom)
      modifies this
      ensures ThreadsOk(t, thread) && ThreadsUnder(t, thread, p, n)
      ensures ancestor == old(ancestor) && prelim == old(prelim) && change == old(change) && shift == old(shift)
      ensures KeptOutside(t, old(Snapshot()), Snapshot(), p)
    {
      NextUnder(t, p, n, vim);
      ThreadRight(vim, vip, sim, sop, t);
      if Snapshot() != old(Snapshot()) {
        ThreadsUnderSet(t, old(thread), p, n, vip, thread[vip.id]);
        ThreadKept(t, old(Snapshot()), p, vip, thread[vip.id], mod[vip.id]);
      }
      NextUnder(t, p, n, vip);
      ghost var threadedRight := Snapshot();
      threaded := ThreadLeft(vip, vom, sip, som, t);
      if threaded {
        ThreadsUnderSet(t, threadedRight.thread, p, n, vom, thread[vom.id]);
        ThreadKept(t, threadedRight, p, vom, thread[vom.id], mod[vom.id]);
      }
      KeptThrough(t, old(Snapshot()), threadedRight, Snapshot(), p);
    }

    /**
     * The end of apportion on the right contour: when the left subtree is
     * deeper than the right one, the deepest node vop of the right contour
     * gets a thread to vim's next node and a mod that keeps the sums right.
     */
    method ThreadRight(vim: WordNode, vop: WordNode, sim: real, sop: real, ghost t: Shape)
      requires Valid(t) && ThreadsOk(t, thread) && InTree(t, vim) && InTree(t, vop)
      requires t.level[vim.id] == t.level[vop.id]
      modifies this
      ensures old(GetNextRight(vim)) != null && old(GetNextRight(vop)) == null ==>
                && thread == old(thread)[vop.id := old(GetNextRight(vim))]
                && mod == old(mod)[vop.id := old(GetMod(vop)) + sim - sop]
      ensures !(old(GetNextRight(vim)) != null && old(GetNextRight(vop)) == null) ==>
                thread == old(thread) && mod == old(mod)
      ensures ThreadsOk(t, thread)
      ensures ancestor == old(ancestor) && prelim == old(prelim)
      ensures change == old(change) && shift == old(shift)
    {
      var vimNextRight := GetNextRight(vim);
      var vopNextRight := GetNextRight(vop);
      if vimNextRight != null && vopNextRight == null {
        NextDeeper(t, vim);
        ThreadSet(t, thread, vop.id, vimNextRight);
        thread := thread[vop.id := vimNextRight];
        mod := mod[vop.id := GetMod(vop) + sim - sop];
      }
    }

    /**
     * The end of apportion on the left contour: when the right subtree is
     * deeper than the left one, the deepest node vom of the left contour gets
     * a thread to vip's next node and a mod that keeps the sums right; the
     * result says whether this happened, in which case apportion makes v the
     * default ancestor.
     */
    method ThreadLeft(vip: WordNode, vom: WordNode, sip: real, som: real, ghost t: Shape) returns (threaded: bool)
      requires Valid(t) && ThreadsOk(t, thread) && InTree(t, vip) && InTree(t, vom)
      requires t.level[vip.id] == t.level[vom.id]
      modifies this
      ensures threaded <==> old(GetNextLeft(vip)) != null && old(GetNextLeft(vom)) == null
      ensures threaded ==>
                && thread == old(thread)[vom.id := old(GetNextLeft(vip))]
                && mod == old(mod)[vom.id := old(GetMod(vom)) + sip - som]
      ensures !threaded ==> thread == old(thread) && mod == old(mod)
      ensures ThreadsOk(t, thread)
      ensures ancestor == old(ancestor) && prelim == old(prelim)
      ensures change == old(change) && shift == old(shift)
    {
      var vipNextLeft := GetNextLeft(vip);
      var vomNextLeft := GetNextLeft(vom);
      threaded := vipNextLeft != null && vomNextLeft == null;
      if threaded {
        NextDeeper(t, vip);
        ThreadSet(t, thread, vom.id, vipNextLeft);
        thread := thread[vom.id := vipNextLeft];
        mod := mod[vom.id := GetMod(vom) + sip - som];
      }
    }

    /** The mods of the d nearest strict ancestors of x. */
    function ModSum(x: WordNode, d: nat): real
      reads this
    {
      if d == 0 then 0.0
      else ModSum(x, d - 1) + (if Up(x, d) == null then 0.0 else GetMod(Up(x, d)))
    }

    /**
     * secondWalk: every node in the subtree of v gets as offset its prelim
     * plus m plus the mods of its ancestors up to and including v; no other
     * node's offset changes, and the tables are only read.
     */
    method SecondWalk(v: WordNode, m: real, ghost t: Shape)
      requires Valid(t) && InTree(t, v)
      modifies t.nodes.Values`offset
      ensures forall x :: InTree(t, x) && InSub(t, x, v) ==>
                x.offset == GetPrelim(x) + m + ModSum(x, t.level[x.id] - t.level[v.id])
      ensures forall x :: InTree(t, x) && !InSub(t, x, v) ==> x.offset == old(x.offset)
      decreases t.height - t.level[v.id], 1
    {
      v.offset := GetPrelim(v) + m;
      var i := 0;
      while i < |v.children|
        invariant 0 <= i <= |v.children|
        invariant v.offset == GetPrelim(v) + m
        invariant forall x :: InTree(t, x) && !InSub(t, x, v) ==> x.offset == old(x.offset)
        invariant forall n, x :: 0 <= n < i && InTree(t, x) && InSub(t, x, v.children[n]) && InSub(t, x, v) ==>
                    x.offset == GetPrelim(x) + m + ModSum(x, t.level[x.id] - t.level[v.id])
      {
        var w := v.children[i];
        SecondWalkChild(v, i, m, t);
        ChildFacts(t, v, i);
        DistinctChildren(t, v);
        forall n, x | 0 <= n < i && InTree(t, x) && InSub(t, x, v.children[n]) && InSub(t, x, v)
          ensures !InSub(t, x, w)
        {
          ChildFacts(t, v, n);
          SubDisjoint(t, x, v.children[n], w);
        }
        i := i + 1;
      }
      forall x | InTree(t, x) && InSub(t, x, v) && x != v
        ensures x.offset == GetPrelim(x) + m + ModSum(x, t.level[x.id] - t.level[v.id])
      {
        var n := SubChild(t, x, v);
      }
    }

    /**
     * One turn of the loop of secondWalk: the subtree of the i-th child w is
     * placed with m plus v's mod, which gives each of its nodes the sum of
     * the mods from its parent up to v; nodes outside it keep their offset.
     */
    method SecondWalkChild(v: WordNode, i: nat, m: real, ghost t: Shape)
      requires Valid(t) && InTree(t, v) && i < |v.children|
      modifies t.nodes.Values`offset
      ensures forall x :: InTree(t, x) && InSub(t, x, v.children[i]) ==>
                InSub(t, x, v) && x.offset == GetPrelim(x) + m + ModSum(x, t.level[x.id] - t.level[v.id])
      ensures forall x :: InTree(t, x) && !InSub(t, x, v.children[i]) ==> x.offset == old(x.offset)
      decreases t.height - t.level[v.id], 0
    {
      var w := v.children[i];
      ChildFacts(t, v, i);
      SecondWalk(w, m + GetMod(v), t);
      forall x | InTree(t, x) && InSub(t, x, w)
        ensures InSub(t, x, v) && x.offset == GetPrelim(x) + m + ModSum(x, t.level[x.id] - t.level[v.id])
      {
        SubTrans(t, x, w);
        UpStep(x, t.level[x.id] - t.level[w.id]);
      }
    }
  }

  function IdsOf(cs: seq<WordNode>): set<int>
  {
    set w | w in cs :: w.id
  }

  /** Key k is absent from both maps or maps to the same value in both. */
  ghost predicate Same<V>(a: map<int, V>, b: map<int, V>, k: int)
  {
    (k in a <==> k in b) && (k in a ==> a[k] == b[k])
  }

  /** A table lookup with 0 for a missing entry. */
  function Get(m: map<int, real>, k: int): real
  {
    if k in m then m[k] else 0.0
  }

  /** m after the entries of cs[i..] grew by add[i..], in any order since the ids are distinct. */
  function Bumped(m: map<int, real>, cs: seq<WordNode>, add: seq<real>, i: nat): map<int, real>
    requires |add| == |cs| && i <= |cs|
    decreases |cs| - i
  {
    if i == |cs| then m
    else Bumped(m, cs, add, i + 1)[cs[i].id := Get(m, cs[i].id) + add[i]]
  }

  lemma {:induction false} BumpedOutside(m: map<int, real>, cs: seq<WordNode>, add: seq<real>, i: nat, k: int)
    requires |add| == |cs| && i <= |cs|
    requires forall x :: i <= x < |cs| ==> cs[x].id != k
    ensures k in Bumped(m, cs, add, i) <==> k in m
    ensures Get(Bumped(m, cs, add, i), k) == Get(m, k)
    decreases |cs| - i
  {
    if i < |cs| {
      BumpedOutside(m, cs, add, i + 1, k);
    }
  }

  /** One step of executeShifts: bumping cs[i] in the table that already has cs[i + 1..] bumped. */
  lemma BumpStep(m: map<int, real>, cs: seq<WordNode>, add: seq<real>, i: nat, cur: map<int, real>, a: real)
    requires |add| == |cs| && i < |cs| && add[i] == a
    requires forall x :: i + 1 <= x < |cs| ==> cs[x].id != cs[i].id
    requires cur == Bumped(m, cs, add, i + 1)
    ensures cur[cs[i].id := Get(cur, cs[i].id) + a] == Bumped(m, cs, add, i)
  {
    BumpedOutside(m, cs, add, i + 1, cs[i].id);
  }

  /**
   * Entry by entry: every id of cs[i..] now holds its old value plus its
   * increment, and every other key is as before.
   */
  lemma {:induction false} BumpedEntries(m: map<int, real>, cs: seq<WordNode>, add: seq<real>, i: nat)
    requires |add| == |cs| && i <= |cs| && DistinctIds(cs)
    ensures forall x :: i <= x < |cs| ==>
              cs[x].id in Bumped(m, cs, add, i) && Bumped(m, cs, add, i)[cs[x].id] == Get(m, cs[x].id) + add[x]
    ensures forall k :: k !in IdsOf(cs[i..]) ==> Same(Bumped(m, cs, add, i), m, k)
    decreases |cs| - i
  {
    if i < |cs| {
      BumpedEntries(m, cs, add, i + 1);
      assert IdsOf(cs[i..]) == {cs[i].id} + IdsOf(cs[i + 1..]) by {
        assert cs[i..] == [cs[i]] + cs[i + 1..];
      }
    }
  }

  /**
   * The loop of executeShifts over one row of siblings cs, from the last to
   * the first: s is the running total of the shifts and of the running sum
   * c of the changes, and each child's prelim and mod entries grow by the s
   * reached just before it. Returns the new prelim and mod tables.
   */
  method ShiftRow(cs: seq<WordNode>, change: map<int, real>, shift: map<int, real>,
                  prelim: map<int, real>, mod: map<int, real>)
    returns (newPrelim: map<int, real>, newMod: map<int, real>)
    requires DistinctIds(cs)
    ensures newPrelim == Bumped(prelim, cs, Added(Entries(change, cs), Entries(shift, cs)), 0)
    ensures newMod == Bumped(mod, cs, Added(Entries(change, cs), Entries(shift, cs)), 0)
  {
    ghost var ch := Entries(change, cs);
    ghost var sh := Entries(shift, cs);
    ghost var add := Added(ch, sh);
    newPrelim, newMod := prelim, mod;
    var s := 0.0;
    var c := 0.0;
    var i := |cs| - 1;
    while i >= 0
      invariant -1 <= i < |cs|
      invariant s == Running(ch, sh, i + 1).0 && c == Running(ch, sh, i + 1).1
      invariant newPrelim == Bumped(prelim, cs, add, i + 1)
      invariant newMod == Bumped(mod, cs, add, i + 1)
    {
      var w := cs[i];
      BumpStep(prelim, cs, add, i, newPrelim, s);
      BumpStep(mod, cs, add, i, newMod, s);
      newPrelim := newPrelim[w.id := Get(newPrelim, w.id) + s];
      newMod := newMod[w.id := Get(newMod, w.id) + s];
      c := c + Get(change, w.id);
      s := s + Get(shift, w.id) + c;
      i := i - 1;
    }
  }

  /** The entries of a table for the nodes of cs, in order, with 0 for a missing entry. */
  function Entries(m: map<int, real>, cs: seq<WordNode>): (r: seq<real>)
    ensures |r| == |cs|
    ensures forall x :: 0 <= x < |cs| ==> r[x] == Get(m, cs[x].id)
  {
    seq(|cs|, x requires 0 <= x < |cs| => Get(m, cs[x].id))
  }

  /** The amount executeShifts adds to each child. */
  function Added(ch: seq<real>, sh: seq<real>): (r: seq<real>)
    requires |ch| == |sh|
    ensures |r| == |ch|
    ensures forall x :: 0 <= x < |ch| ==> r[x] == Running(ch, sh, x + 1).0
  {
    seq(|ch|, x requires 0 <= x < |ch| => Running(ch, sh, x + 1).0)
  }

  /**
   * The running totals (s, c) of executeShifts once it has handled the
   * children from the last one down to index i; the child at index i is
   * moved by the totals reached just before it, Running(ch, sh, i + 1).0.
   */
  function Running(ch: seq<real>, sh: seq<real>, i: nat): (real, real)
    requires |ch| == |sh| && i <= |ch|
    decreases |ch| - i
  {
    if i == |ch| then (0.0, 0.0)
    else
      var (s, c) := Running(ch, sh, i + 1);
      (s + sh[i] + (c + ch[i]), c + ch[i])
  }

  /** The running change total is the sum of the changes to the right. */
  lemma {:induction false} RunningChange(ch: seq<real>, sh: seq<real>, i: nat)
    requires |ch| == |sh| && i <= |ch|
    ensures Running(ch, sh, i).1 == Sum(ch[i..])
    decreases |ch| - i
  {
    if i < |ch| {
      RunningChange(ch, sh, i + 1);
      assert ch[i..] == [ch[i]] + ch[i + 1..];
      SumCons(ch[i], ch[i + 1..]);
    }
  }

  function Sum(s: seq<real>): real
  {
    if |s| == 0 then 0.0 else Sum(s[..|s| - 1]) + s[|s| - 1]
  }

  lemma {:induction false} SumCons(x: real, s: seq<real>)
    ensures Sum([x] + s) == x + Sum(s)
    decreases |s|
  {
    if |s| > 0 {
      assert ([x] + s)[..|s|] == [x] + s[..|s| - 1];
      SumCons(x, s[..|s| - 1]);
    }
  }

  // ---------------------------------------------------------------------------
  // The span of moveSubtree, on one row of siblings
  // ---------------------------------------------------------------------------

  /**
   * The change entries of a row of n siblings, all zero before, after one
   * moveSubtree from sibling j to sibling i that hands out the share q.
   */
  function RowChanges(n: nat, j: nat, i: nat, q: real): (r: seq<real>)
    requires j < i < n
    ensures |r| == n && r[i] == -q && r[j] == q
    ensures forall x :: 0 <= x < n && x != i && x != j ==> r[x] == 0.0
  {
    seq(n, x => if x == i then -q else if x == j then q else 0.0)
  }

  /** The shift entries of that row: the whole move s, at sibling i. */
  function RowShifts(n: nat, i: nat, s: real): (r: seq<real>)
    requires i < n
    ensures |r| == n && r[i] == s
    ensures forall x :: 0 <= x < n && x != i ==> r[x] == 0.0
  {
    seq(n, x => if x == i then s else 0.0)
  }

  /** executeShifts on that row: nothing right of i, a share less per step left of i, and a constant left of j. */
  lemma {:induction false} RowRunning(n: nat, j: nat, i: nat, s: real, q: real, x: nat)
    requires j < i < n && x <= n
    ensures var r := Running(RowChanges(n, j, i, q), RowShifts(n, i, s), x);
            && (x > i ==> r == (0.0, 0.0))
            && (j < x <= i ==> r == (s - Times(i - x + 1, q), -q))
            && (x <= j ==> r == (s - Times(i - j, q), 0.0))
    decreases n - x
  {
    if x < n {
      RowRunning(n, j, i, s, q, x + 1);
    }
  }

  /** k shares of q, added one at a time. */
  function Times(k: nat, q: real): real
  {
    if k == 0 then 0.0 else Times(k - 1, q) + q
  }

  lemma {:induction false} TimesIsProduct(k: nat, q: real)
    ensures Times(k, q) == k as real * q
  {
    if k > 0 {
      TimesIsProduct(k - 1, q);
      assert k as real * q == (k - 1) as real * q + q;
    }
  }

  /**
   * As written (span = index(wp) - index(wm) + 1): wm and every sibling to
   * its left move right by s / span, although the move was meant for wp's
   * subtree alone.
   */
  lemma SpreadAsWritten(n: nat, j: nat, i: nat, s: real, x: nat)
    requires j < i < n && x <= j
    ensures var q := s / (i - j + 1) as real;
            && Running(RowChanges(n, j, i, q), RowShifts(n, i, s), x + 1).0 == q
            && (s != 0.0 ==> q != 0.0)
  {
    RowRunning(n, j, i, s, s / (i - j + 1) as real, x + 1);
    ShareLeft(s, i - j);
  }

  /** Handing out s / (m + 1) to each of m siblings leaves one share over. */
  lemma ShareLeft(s: real, m: nat)
    requires m >= 1
    ensures s - Times(m, s / (m + 1) as real) == s / (m + 1) as real
    ensures s != 0.0 ==> s / (m + 1) as real != 0.0
  {
    var k := (m + 1) as real;
    var q := s / k;
    TimesIsProduct(m, q);
    assert k == m as real + 1.0;
    assert q * k == s;
  }

  /** The span of the published algorithm: index(wp) - index(wm), without the + 1. */
  function CorrectedSubtrees(wm: WordNode, wp: WordNode): int
    reads wm.parent, wp.parent
    requires wm.parent != null && wp.parent != null
  {
    IndexOf(wp.parent.children, wp) - IndexOf(wm.parent.children, wm)
  }

  lemma CorrectedSpan(t: Shape, p: WordNode, j: nat, i: nat)
    requires Valid(t) && InTree(t, p) && j < i < |p.children|
    ensures p.children[j].parent == p && p.children[i].parent == p
    ensures CorrectedSubtrees(p.children[j], p.children[i]) == i - j
    ensures Subtrees(p.children[j], p.children[i]) == i - j + 1
  {
    ChildFacts(t, p, i);
    ChildFacts(t, p, j);
    DistinctChildren(t, p);
    assert IndexOf(p.children, p.children[i]) == i;
    assert IndexOf(p.children, p.children[j]) == j;
  }

  /**
   * With the corrected span wm and the siblings to its left stay put, each
   * sibling strictly between wm and wp moves by its distance from wm times
   * the share s / (i - j), and wp, which moveSubtree raised by s itself,
   * gets nothing more.
   */
  lemma SpreadCorrected(n: nat, j: nat, i: nat, s: real, x: nat)
    requires j < i < n && x < n
    ensures var q := s / (i - j) as real;
            var added := Running(RowChanges(n, j, i, q), RowShifts(n, i, s), x + 1).0;
            && (x <= j ==> added == 0.0)
            && (j < x < i ==> added == (x - j) as real * q)
            && (x >= i ==> added == 0.0)
  {
    RowRunning(n, j, i, s, s / (i - j) as real, x + 1);
    if x <= j {
      ShareAll(s, i - j);
    } else if x < i {
      ShareRest(s, i, j, x);
    }
  }

  /** Handing out s / m to each of m siblings hands out s. */
  lemma ShareAll(s: real, m: nat)
    requires m >= 1
    ensures s - Times(m, s / m as real) == 0.0
  {
    var q := s / m as real;
    TimesIsProduct(m, q);
    assert m as real * q == s;
  }

  /** What is left of s after i - x of the i - j shares is x - j shares. */
  lemma ShareRest(s: real, i: nat, j: nat, x: nat)
    requires j < x < i
    ensures s - Times(i - x, s / (i - j) as real) == (x - j) as real * (s / (i - j) as real)
  {
    var q := s / (i - j) as real;
    TimesIsProduct(i - x, q);
    assert (i - j) as real * q == s;
    assert (i - j) as real == (i - x) as real + (x - j) as real;
    assert (i - j) as real * q == (i - x) as real * q + (x - j) as real * q;
  }

  /**
   * The bridge from moveSubtree to a row: for wm = p.children[j] and
   * wp = p.children[i] with j < i, the change and shift tables as
   * MoveSubtree leaves them hold, for p's children, the old entries plus
   * RowChanges and RowShifts with the share s / Subtrees(wm, wp); on a row
   * whose entries were all zero, exactly those rows.
   */
  lemma MoveOnRow(t: Shape, p: WordNode, j: nat, i: nat, s: real, change: map<int, real>, shift: map<int, real>)
    requires Valid(t) && InTree(t, p) && j < i < |p.children|
    ensures p.children[j].parent == p && p.children[i].parent == p && Subtrees(p.children[j], p.children[i]) == i - j + 1
    ensures var wm, wp, n := p.children[j], p.children[i], |p.children|;
            var q := s / Subtrees(wm, wp) as real;
            var moved := change[wp.id := Get(change, wp.id) - q]
                               [wm.id := (if wm.id == wp.id then Get(change, wp.id) - q else Get(change, wm.id)) + q];
            var shifted := shift[wp.id := Get(shift, wp.id) + s];
            && (forall x :: 0 <= x < n ==> Entries(moved, p.children)[x] == Entries(change, p.children)[x] + RowChanges(n, j, i, q)[x])
            && (forall x :: 0 <= x < n ==> Entries(shifted, p.children)[x] == Entries(shift, p.children)[x] + RowShifts(n, i, s)[x])
            && (Entries(change, p.children) == seq(n, x => 0.0) ==> Entries(moved, p.children) == RowChanges(n, j, i, q))
            && (Entries(shift, p.children) == seq(n, x => 0.0) ==> Entries(shifted, p.children) == RowShifts(n, i, s))
  {
    CorrectedSpan(t, p, j, i);
    DistinctChildren(t, p);
  }

  // ---------------------------------------------------------------------------
  // treeLayout
  // ---------------------------------------------------------------------------

  /**
   * treeLayout: fresh tables, the first walk from the root, then the second
   * walk with m = -prelim(root). Every node's offset is then its prelim plus
   * the mods of all its strict ancestors minus the root's prelim, so the
   * root sits at 0.
   */
  method TreeLayoutOf(root: WordNode, ghost t: Shape) returns (layout: Layout)
    requires Valid(t) && t.root == root
    modifies t.nodes.Values`offset
    ensures root.offset == 0.0
    ensures forall x :: InTree(t, x) ==>
              x.offset == layout.GetPrelim(x) - layout.GetPrelim(root) + layout.ModSum(x, t.level[x.id])
  {
    layout := new Layout();
    layout.FirstWalk(root, t);
    layout.SecondWalk(root, -layout.GetPrelim(root), t);
    forall x | InTree(t, x)
      ensures InSub(t, x, root)
    {
      UnderRoot(t, x);
    }
  }
}

=== FILE: word_node.dfy ===
// src/WordNode.ts: a node of the tree of words the player has moved through.
// A node's word and parent are fixed when it is made; its list of children
// only grows, through makeNext, which reuses the child for a word that is
// already there and otherwise appends a new one. The layout also reads a
// numeric id and writes an offset on each node, so both are fields here; the
// id is chosen by whoever makes the node.

module WordTree {

  class WordNode {
    const word: string
    const name: string
    const parent: WordNode?
    const id: int
    var children: seq<WordNode>
    var offset: real

    /** A node for `word` under `parent` (null for a root), with no children. */
    constructor(word: string, parent: WordNode?, id: int)
      ensures this.word == word && name == word
      ensures this.parent == parent && this.id == id
      ensures children == [] && offset == 0.0
    {
      this.word := word;
      name := word;
      this.parent := parent;
      this.id := id;
      children := [];
      offset := 0.0;
    }

    /** No two children carry the same word. */
    ghost predicate DistinctWords()
      reads this
    {
      forall i, j :: 0 <= i < j < |children| ==> children[i].word != children[j].word
    }

    /**
     * makeNext: the child for `word`. When a child already carries the word
     * it is returned and nothing changes; otherwise a new node for the word,
     * whose parent is this node, is appended after the existing children.
     * Either way the result is afterwards the first child carrying the word,
     * so a second call with the same word returns it again.
     */
    method MakeNext(word: string, id: int) returns (next: WordNode)
      modifies this`children
      ensures old(FirstWithWord(children, word)) < old(|children|) ==>
                && children == old(children)
                && next == old(children[FirstWithWord(children, word)])
      ensures old(FirstWithWord(children, word)) == old(|children|) ==>
                && fresh(next)
                && next.word == word && next.name == word && next.parent == this && next.id == id
                && next.children == [] && next.offset == 0.0
                && children == old(children) + [next]
      ensures FirstWithWord(children, word) < |children| && children[FirstWithWord(children, word)] == next
      ensures next.word == word
      ensures old(DistinctWords()) ==> DistinctWords()
      ensures offset == old(offset)
    {
      var found := FindChild(word);
      if found != null {
        return found;
      }
      next := new WordNode(word, this, id);
      children := children + [next];
      FirstWithWordSnoc(old(children), word, next);
    }

    /** The search of makeNext: the first child carrying `word`, or null. */
    method FindChild(word: string) returns (r: WordNode?)
      ensures FirstWithWord(children, word) < |children| ==> r == children[FirstWithWord(children, word)]
      ensures FirstWithWord(children, word) == |children| ==> r == null
    {
      var i := 0;
      while i < |children|
        invariant 0 <= i <= |children|
        invariant forall j :: 0 <= j < i ==> children[j].word != word
      {
        if children[i].word == word {
          FirstWithWordIs(children, word, i);
          return children[i];
        }
        i := i + 1;
      }
      FirstWithWordIs(children, word, i);
      r := null;
    }

    /** Two makeNext calls for the same word: the second returns the node the first did, and adds nothing. */
    method MakeNextTwice(word: string, id1: int, id2: int) returns (first: WordNode, second: WordNode)
      modifies this`children
      ensures first == second
      ensures offset == old(offset)
      ensures |old(children)| <= |children| <= |old(children)| + 1
      ensures old(DistinctWords()) ==> DistinctWords()
    {
      first := MakeNext(word, id1);
      ghost var between := children;
      second := MakeNext(word, id2);
      assert children == between;
    }
  }

  /** The index of the first node of cs carrying `word`, or |cs| when none does. */
  function FirstWithWord(cs: seq<WordNode>, word: string): (i: nat)
    ensures i <= |cs|
    ensures forall j :: 0 <= j < i ==> cs[j].word != word
    ensures i < |cs| ==> cs[i].word == word
  {
    if |cs| == 0 then 0
    else if cs[0].word == word then 0
    else 1 + FirstWithWord(cs[1..], word)
  }

  lemma FirstWithWordIs(cs: seq<WordNode>, word: string, i: nat)
    requires i <= |cs|
    requires forall j :: 0 <= j < i ==> cs[j].word != word
    requires i < |cs| ==> cs[i].word == word
    ensures FirstWithWord(cs, word) == i
  {
  }

  /** Appending a node for a word that was absent makes it the first node with that word. */
  lemma FirstWithWordSnoc(cs: seq<WordNode>, word: string, next: WordNode)
    requires FirstWithWord(cs, word) == |cs|
    requires next.word == word
    ensures FirstWithWord(cs + [next], word) == |cs|
  {
    FirstWithWordIs(cs + [next], word, |cs|);
  }
}

=== FILE: word_search.dfy ===
// Breadth-first search over the implicit word graph, shared by
// shared/pathFinder.ts and src/pathFinder.ts, whose findPath and buildPath
// are the same code. The queue holds (word, steps) pairs; the visited map
// records each word's predecessor, null for the words marked before the
// search starts.

module WordSearch {

  import opened WordValidator

  type Visited = map<string, Option<string>>
  type Queue = seq<(string, nat)>

  /** A Map lookup: a missing key reads as null, like a stored null. */
  function Lookup(visited: Visited, w: string): (r: Option<string>)
    ensures r.Some? ==> w in visited && visited[w] == r
  {
    if w in visited then visited[w] else None
  }

  // ---------------------------------------------------------------------------
  // Walks and distances in the graph given by a neighbour function
  // ---------------------------------------------------------------------------

  /** Consecutive words are neighbours, and no step enters a blocked word. */
  ghost predicate IsWalk(next: string -> seq<string>, blocked: set<string>, p: seq<string>)
  {
    && |p| >= 1
    && forall i :: 1 <= i < |p| ==> p[i] in next(p[i - 1]) && p[i] !in blocked
  }

  ghost predicate IsWalkBetween(next: string -> seq<string>, blocked: set<string>, p: seq<string>, from: string, to: string)
  {
    IsWalk(next, blocked, p) && p[0] == from && p[|p| - 1] == to
  }

  /** `to` is exactly k moves from `from`: some walk has k moves and none has fewer. */
  ghost predicate AtDistance(next: string -> seq<string>, blocked: set<string>, from: string, to: string, k: nat)
  {
    && (exists p :: IsWalkBetween(next, blocked, p, from, to) && |p| == k + 1)
    && (forall p :: IsWalkBetween(next, blocked, p, from, to) ==> |p| >= k + 1)
  }

  /** Walks depend only on which words are neighbours, not on their order. */
  lemma SameNeighboursSameWalks(next1: string -> seq<string>, next2: string -> seq<string>, blocked: set<string>)
    requires forall u, v :: v in next1(u) <==> v in next2(u)
    ensures forall p :: IsWalk(next1, blocked, p) <==> IsWalk(next2, blocked, p)
    ensures forall from, to, k :: AtDistance(next1, blocked, from, to, k) <==> AtDistance(next2, blocked, from, to, k)
  {
    forall from, to, k
      ensures AtDistance(next1, blocked, from, to, k) <==> AtDistance(next2, blocked, from, to, k)
    {
      assert forall p :: IsWalkBetween(next1, blocked, p, from, to) <==> IsWalkBetween(next2, blocked, p, from, to);
    }
  }

  /** Some walk leads from `from` to `to`. */
  ghost predicate Reachable(next: string -> seq<string>, blocked: set<string>, from: string, to: string)
  {
    exists p :: IsWalkBetween(next, blocked, p, from, to)
  }

  /** A word has at most one distance. */
  lemma AtDistanceUnique(next: string -> seq<string>, blocked: set<string>, from: string, to: string, k1: nat, k2: nat)
    requires AtDistance(next, blocked, from, to, k1) && AtDistance(next, blocked, from, to, k2)
    ensures k1 == k2
  {
    var p1 :| IsWalkBetween(next, blocked, p1, from, to) && |p1| == k1 + 1;
    var p2 :| IsWalkBetween(next, blocked, p2, from, to) && |p2| == k2 + 1;
  }

  /** Every reachable word has a distance, no larger than the length of any walk to it. */
  lemma {:induction false} ShortestWalk(next: string -> seq<string>, blocked: set<string>, from: string, to: string, p: seq<string>)
    requires IsWalkBetween(next, blocked, p, from, to)
    ensures exists k: nat :: k < |p| && AtDistance(next, blocked, from, to, k)
    decreases |p|
  {
    if q :| IsWalkBetween(next, blocked, q, from, to) && |q| < |p| {
      ShortestWalk(next, blocked, from, to, q);
    } else {
      assert AtDistance(next, blocked, from, to, |p| - 1);
    }
  }

  /** The move graph of a word list: the successful moves with no goal word, as both path finders build it. */
  function Moves(wordList: seq<string>): string -> seq<string>
  {
    w => PossibleNextWords(Validator(wordList, None), w)
  }

  /** Every consecutive pair of words is a move the validator accepts. */
  predicate IsLadder(wordList: seq<string>, p: seq<string>)
  {
    forall i :: 1 <= i < |p| ==> ValidateGuess(Validator(wordList, None), p[i - 1], p[i]) == Success
  }

  /** A walk in the move graph is a ladder of dictionary words of legal shape. */
  lemma WalkIsLadder(wordList: seq<string>, blocked: set<string>, p: seq<string>)
    requires IsWalk(Moves(wordList), blocked, p)
    ensures IsLadder(wordList, p)
    ensures forall i :: 1 <= i < |p| ==> p[i] in wordList && IsLegalShape(p[i - 1], p[i])
  {
    forall i | 1 <= i < |p|
      ensures ValidateGuess(Validator(wordList, None), p[i - 1], p[i]) == Success
      ensures p[i] in wordList && IsLegalShape(p[i - 1], p[i])
    {
      assert p[i] in Moves(wordList)(p[i - 1]);
      PossibleNextWordsMembers(Validator(wordList, None), p[i - 1]);
      NoGoalMoves(wordList, p[i - 1]);
    }
  }

  /** Reordered lists have the same members. */
  lemma SameMembers(a: seq<string>, b: seq<string>)
    requires multiset(a) == multiset(b)
    ensures forall v :: v in a <==> v in b
  {
    forall v
      ensures v in a <==> v in b
    {
      assert v in a <==> v in multiset(a);
      assert v in b <==> v in multiset(b);
    }
  }

  // ---------------------------------------------------------------------------
  // The predecessor map and path reconstruction
  // ---------------------------------------------------------------------------

  /**
   * A predecessor map whose chains end at `from`: every word with a
   * predecessor has a ghost depth one more than its predecessor's.
   */
  ghost predicate Rooted(visited: Visited, from: string, depth: map<string, nat>)
  {
    && from in depth && depth[from] == 0
    && (forall w :: w in visited && w != from && visited[w].Some? ==>
          w in depth && visited[w].value in depth && depth[w] == depth[visited[w].value] + 1)
    && (forall w :: w in depth && w != from ==> w in visited && visited[w].Some?)
  }

  /** The chain of predecessors from `from` to w, in forward order. */
  ghost function PredChain(visited: Visited, from: string, depth: map<string, nat>, w: string): (r: seq<string>)
    requires Rooted(visited, from, depth) && w in depth
    ensures |r| == depth[w] + 1 && r[0] == from && r[|r| - 1] == w
    decreases depth[w]
  {
    if w == from then [from] else PredChain(visited, from, depth, visited[w].value) + [w]
  }

  /**
   * buildPath: walk the predecessors back from toWord, prepending each one,
   * until fromWord or a missing predecessor is reached.
   */
  method BuildPath(visited: Visited, fromWord: string, toWord: string, ghost depth: map<string, nat>)
    returns (path: seq<string>)
    requires Rooted(visited, fromWord, depth)
    ensures |path| >= 1 && path[|path| - 1] == toWord
    ensures forall i :: 0 <= i < |path| - 1 ==> Lookup(visited, path[i + 1]) == Some(path[i])
    ensures forall i :: 1 <= i < |path| ==> path[i] != fromWord
    ensures path[0] == fromWord || Lookup(visited, path[0]) == None
    ensures toWord in depth ==> path == PredChain(visited, fromWord, depth, toWord)
    ensures Lookup(visited, toWord) == None ==> path == [toWord]
  {
    path := [toWord];
    var current: Option<string> := Some(toWord);
    while current != Some(fromWord) && current.Some?
      invariant BackChain(visited, fromWord, toWord, path)
      invariant current.Some? ==> current.value == path[0]
      invariant current.None? ==> path[0] != fromWord && Lookup(visited, path[0]) == None
      invariant toWord in depth ==>
        current.Some? && current.value in depth &&
        PredChain(visited, fromWord, depth, current.value) + path[1..] == PredChain(visited, fromWord, depth, toWord)
      decreases if current.None? then 0 else if current.value in depth then depth[current.value] + 2 else 1
    {
      ghost var tail := path;
      current := Lookup(visited, current.value);
      if current.Some? {
        BackLinked(visited, fromWord, toWord, tail, current.value);
        if toWord in depth {
          PredStep(visited, fromWord, depth, tail[0]);
          ChainPrepend(PredChain(visited, fromWord, depth, current.value), tail,
                       PredChain(visited, fromWord, depth, toWord), current.value);
        }
        path := [current.value] + path;
      }
    }
    if |path| >= 2 {
      assert Lookup(visited, path[|path| - 1]) == Some(path[|path| - 2]);
    }
  }

  /**
   * What buildPath has built so far: a path ending at toWord in which each
   * word is the recorded predecessor of the next, and fromWord appears at
   * most at the front.
   */
  ghost predicate BackChain(visited: Visited, from: string, toWord: string, path: seq<string>)
  {
    && |path| >= 1 && path[|path| - 1] == toWord
    && (forall i :: 0 <= i < |path| - 1 ==> Lookup(visited, path[i + 1]) == Some(path[i]))
    && (forall i :: 1 <= i < |path| ==> path[i] != from)
  }

  /** Prepending the recorded predecessor of the first word keeps a BackChain. */
  lemma BackLinked(visited: Visited, from: string, toWord: string, path: seq<string>, p: string)
    requires BackChain(visited, from, toWord, path)
    requires path[0] != from && Lookup(visited, path[0]) == Some(p)
    ensures BackChain(visited, from, toWord, [p] + path)
  {
    var q := [p] + path;
    forall i | 0 <= i < |q| - 1
      ensures Lookup(visited, q[i + 1]) == Some(q[i])
    {
      if i > 0 {
        assert q[i + 1] == path[i] && q[i] == path[i - 1];
      }
    }
    forall i | 1 <= i < |q|
      ensures q[i] != from
    {
      assert q[i] == path[i - 1];
    }
  }

  /** A chain that ends with the first word of path, followed by the rest of path, is the chain followed by path. */
  lemma ChainPrepend(chain: seq<string>, path: seq<string>, whole: seq<string>, p: string)
    requires |path| >= 1 && (chain + [path[0]]) + path[1..] == whole
    ensures chain + ([p] + path)[1..] == whole
  {
    assert ([p] + path)[1..] == path == [path[0]] + path[1..];
  }

  /** One step back along a rooted predecessor map lowers the depth by one and shortens the chain by its last word. */
  lemma PredStep(visited: Visited, from: string, depth: map<string, nat>, c: string)
    requires Rooted(visited, from, depth) && c != from && Lookup(visited, c).Some?
    ensures c in depth && Lookup(visited, c).value in depth
    ensures depth[Lookup(visited, c).value] + 1 == depth[c]
    ensures PredChain(visited, from, depth, c) == PredChain(visited, from, depth, Lookup(visited, c).value) + [c]
  {
  }

  // ---------------------------------------------------------------------------
  // Enqueueing the neighbours of a dequeued word
  // ---------------------------------------------------------------------------

  /** The neighbours not yet visited, in the order they come, each once. */
  function NewWords(nexts: seq<string>, seen: set<string>): seq<string>
  {
    if |nexts| == 0 then []
    else
      var prefix := NewWords(nexts[..|nexts| - 1], seen);
      var w := nexts[|nexts| - 1];
      if w in seen || w in prefix then prefix else prefix + [w]
  }

  lemma {:induction false} NewWordsFacts(nexts: seq<string>, seen: set<string>)
    ensures forall w :: w in NewWords(nexts, seen) <==> w in nexts && w !in seen
    ensures forall i, j :: 0 <= i < j < |NewWords(nexts, seen)| ==> NewWords(nexts, seen)[i] != NewWords(nexts, seen)[j]
    ensures (forall w :: w in nexts ==> w in seen) ==> NewWords(nexts, seen) == []
  {
    if |nexts| > 0 {
      var init := nexts[..|nexts| - 1];
      NewWordsFacts(init, seen);
      assert nexts == init + [nexts[|nexts| - 1]];
    }
  }

  lemma NewWordsSnoc(nexts: seq<string>, i: nat, seen: set<string>)
    requires i < |nexts|
    ensures NewWords(nexts[..i + 1], seen) ==
      if nexts[i] in seen || nexts[i] in NewWords(nexts[..i], seen) then NewWords(nexts[..i], seen)
      else NewWords(nexts[..i], seen) + [nexts[i]]
  {
    assert nexts[..i + 1][..i] == nexts[..i];
  }

  /** The visited map after recording `pred` as the predecessor of each word in ws, in order. */
  function MarkAll(visited: Visited, ws: seq<string>, pred: string): Visited
  {
    if |ws| == 0 then visited
    else MarkAll(visited, ws[..|ws| - 1], pred)[ws[|ws| - 1] := Some(pred)]
  }

  lemma {:induction false} MarkAllEntries(visited: Visited, ws: seq<string>, pred: string)
    ensures forall w :: w in MarkAll(visited, ws, pred) <==> w in visited || w in ws
    ensures forall w :: w in ws ==> MarkAll(visited, ws, pred)[w] == Some(pred)
    ensures forall w :: w in visited && w !in ws ==> MarkAll(visited, ws, pred)[w] == visited[w]
  {
    if |ws| > 0 {
      MarkAllEntries(visited, ws[..|ws| - 1], pred);
      assert ws == ws[..|ws| - 1] + [ws[|ws| - 1]];
    }
  }

  /** Queue entries for the words in ws, all at the given step count. */
  function Enqueued(ws: seq<string>, steps: nat): Queue
  {
    if |ws| == 0 then [] else Enqueued(ws[..|ws| - 1], steps) + [(ws[|ws| - 1], steps)]
  }

  lemma {:induction false} EnqueuedEntries(ws: seq<string>, steps: nat)
    ensures |Enqueued(ws, steps)| == |ws|
    ensures forall i :: 0 <= i < |ws| ==> Enqueued(ws, steps)[i] == (ws[i], steps)
  {
    if |ws| > 0 {
      EnqueuedEntries(ws[..|ws| - 1], steps);
    }
  }

  /** One neighbour more: it is new exactly when the visited map built so far lacks it. */
  lemma EnqueueStep(visited: Visited, nexts: seq<string>, i: nat, current: string, steps: nat)
    requires i < |nexts|
    ensures var before := NewWords(nexts[..i], visited.Keys);
            var after := NewWords(nexts[..i + 1], visited.Keys);
            var w := nexts[i];
            && (w in MarkAll(visited, before, current) ==> after == before)
            && (w !in MarkAll(visited, before, current) ==>
                  && after == before + [w]
                  && MarkAll(visited, after, current) == MarkAll(visited, before, current)[w := Some(current)]
                  && Enqueued(after, steps) == Enqueued(before, steps) + [(w, steps)])
  {
    var before := NewWords(nexts[..i], visited.Keys);
    NewWordsSnoc(nexts, i, visited.Keys);
    MarkAllEntries(visited, before, current);
    assert (before + [nexts[i]])[..|before|] == before;
  }

  /**
   * The inner loop of findPath: every neighbour not yet in the visited map
   * is recorded with the dequeued word as its predecessor and pushed with
   * one more step.
   */
  method EnqueueNexts(visited: Visited, queue: Queue, current: string, steps: nat, nexts: seq<string>)
    returns (visited': Visited, queue': Queue)
    ensures visited' == MarkAll(visited, NewWords(nexts, visited.Keys), current)
    ensures queue' == queue + Enqueued(NewWords(nexts, visited.Keys), steps + 1)
  {
    visited', queue' := visited, queue;
    var i := 0;
    while i < |nexts|
      invariant 0 <= i <= |nexts|
      invariant visited' == MarkAll(visited, NewWords(nexts[..i], visited.Keys), current)
      invariant queue' == queue + Enqueued(NewWords(nexts[..i], visited.Keys), steps + 1)
    {
      var word := nexts[i];
      EnqueueStep(visited, nexts, i, current, steps + 1);
      if word !in visited' {
        ghost var pushed := Enqueued(NewWords(nexts[..i], visited.Keys), steps + 1);
        visited' := visited'[word := Some(current)];
        queue' := queue' + [(word, steps + 1)];
        assert queue' == queue + (pushed + [(word, steps + 1)]);
      }
      i := i + 1;
    }
    assert nexts[..|nexts|] == nexts;
  }

  // ---------------------------------------------------------------------------
  // The search invariant
  // ---------------------------------------------------------------------------

  /**
   * The visited map as a BFS forest over `depth`: the blocked words (those
   * marked before the search) have no predecessor, every recorded
   * predecessor is an edge of the graph, and every reached word other than
   * the start lies one level below its predecessor.
   */
  ghost predicate Forest(next: string -> seq<string>, blocked: set<string>, start: string, visited: Visited, depth: map<string, nat>)
  {
    && start in depth && depth[start] == 0
    && (forall w :: w in blocked ==> w in visited && visited[w] == None)
    && (forall w :: w in visited ==> w in blocked || w in depth)
    && (forall w :: w in visited && visited[w].Some? ==> visited[w].value in depth && w in next(visited[w].value))
    && (forall w :: w in depth && w != start ==>
          && w !in blocked && w in visited && visited[w].Some?
          && depth[w] == depth[visited[w].value] + 1)
  }

  function QueueWords(queue: Queue): set<string>
  {
    set i | 0 <= i < |queue| :: queue[i].0
  }

  /**
   * The queue holds reached words at their depth (the start may come back
   * later when it is not blocked), in non-decreasing order of steps spanning
   * at most two levels, and every reached word not yet expanded is in it.
   */
  ghost predicate QueueOk(blocked: set<string>, start: string, queue: Queue, depth: map<string, nat>, expanded: set<string>)
  {
    && (forall i :: 0 <= i < |queue| ==>
          queue[i].0 in depth && (queue[i].1 == depth[queue[i].0] || (queue[i].0 == start && start !in blocked)))
    && (forall i, j :: 0 <= i <= j < |queue| ==> queue[i].1 <= queue[j].1)
    && (forall i :: 0 <= i < |queue| ==> queue[i].1 <= queue[0].1 + 1)
    && (|queue| > 0 ==> forall w :: w in depth ==> depth[w] <= queue[0].1 + 1)
    && (forall w :: w in depth && w !in expanded ==> w in QueueWords(queue))
    && (start in expanded || queue == [(start, 0)])
  }

  /** Every neighbour of an expanded word is visited, and no deeper than one level below it. */
  ghost predicate Closed(next: string -> seq<string>, start: string, visited: Visited, depth: map<string, nat>, expanded: set<string>)
  {
    && expanded <= depth.Keys
    && (forall u, v :: u in expanded && v in next(u) ==>
          v in visited && (v in depth && v != start ==> depth[v] <= depth[u] + 1))
  }

  ghost predicate NoGoalExpanded(isGoal: (string, nat) -> bool, depth: map<string, nat>, expanded: set<string>)
    requires expanded <= depth.Keys
  {
    forall u :: u in expanded ==> !isGoal(u, depth[u])
  }

  ghost predicate BfsInv(next: string -> seq<string>, isGoal: (string, nat) -> bool, blocked: set<string>, start: string,
                         visited: Visited, queue: Queue, depth: map<string, nat>, expanded: set<string>)
  {
    && Forest(next, blocked, start, visited, depth)
    && QueueOk(blocked, start, queue, depth, expanded)
    && Closed(next, start, visited, depth, expanded)
    && NoGoalExpanded(isGoal, depth, expanded)
  }

  /** Depth entries for the newly reached words (the start keeps depth 0). */
  function DepthMarks(ws: seq<string>, start: string, d: nat): map<string, nat>
  {
    map w | w in ws && w != start :: d
  }

  lemma ForestRooted(next: string -> seq<string>, blocked: set<string>, start: string, visited: Visited, depth: map<string, nat>)
    requires Forest(next, blocked, start, visited, depth)
    ensures Rooted(visited, start, depth)
  {
  }

  /** In a BFS forest, every predecessor chain is a walk from the start. */
  lemma {:induction false} ChainIsWalk(next: string -> seq<string>, blocked: set<string>, start: string,
                                       visited: Visited, depth: map<string, nat>, w: string)
    requires Forest(next, blocked, start, visited, depth) && w in depth
    ensures Rooted(visited, start, depth)
    ensures IsWalkBetween(next, blocked, PredChain(visited, start, depth, w), start, w)
    decreases depth[w]
  {
    ForestRooted(next, blocked, start, visited, depth);
    if w != start {
      var u := visited[w].value;
      ChainIsWalk(next, blocked, start, visited, depth, u);
      var c := PredChain(visited, start, depth, u);
      assert PredChain(visited, start, depth, w) == c + [w];
      assert forall i :: 1 <= i < |c| ==> c[i] in next(c[i - 1]) && c[i] !in blocked;
    }
  }

  /** Every word reached but not expanded sits at or past the queue front. */
  lemma FrontBound(blocked: set<string>, start: string, queue: Queue, depth: map<string, nat>, expanded: set<string>)
    requires QueueOk(blocked, start, queue, depth, expanded) && |queue| > 0
    ensures forall w :: w in depth && w !in expanded ==> depth[w] >= queue[0].1
  {
    forall w | w in depth && w !in expanded
      ensures depth[w] >= queue[0].1
    {
      assert w in QueueWords(queue);
      var i :| 0 <= i < |queue| && queue[i].0 == w;
      if queue[i].1 != depth[w] {
        assert w == start && start !in expanded;
        assert queue == [(start, 0)];
      }
    }
  }

  /**
   * When every word above level f is expanded, no walk from the start
   * reaches a word in fewer moves than its depth, up to f moves.
   */
  lemma {:induction false} WalkBound(next: string -> seq<string>, blocked: set<string>, start: string, visited: Visited,
                                     depth: map<string, nat>, expanded: set<string>, f: nat, p: seq<string>)
    requires Forest(next, blocked, start, visited, depth)
    requires Closed(next, start, visited, depth, expanded)
    requires forall w :: w in depth && depth[w] < f ==> w in expanded
    requires IsWalk(next, blocked, p) && p[0] == start
    ensures forall i :: 0 <= i < |p| && i <= f ==> p[i] in depth && depth[p[i]] <= i
    decreases |p|
  {
    if |p| > 1 {
      var n := |p| - 1;
      var q := p[..n];
      assert forall i :: 0 <= i < n ==> q[i] == p[i];
      WalkBound(next, blocked, start, visited, depth, expanded, f, q);
      if n <= f {
        assert p[n - 1] in depth && depth[p[n - 1]] <= n - 1;
        assert p[n] in next(p[n - 1]) && p[n] !in blocked;
      }
    }
  }

  /**
   * The visited map and depths after marking the new words nw with
   * predecessor cur at depth d, stated entry by entry.
   */
  ghost predicate Extends(visited: Visited, depth: map<string, nat>, nw: seq<string>, cur: string, start: string, d: nat,
                          visited': Visited, depth': map<string, nat>)
  {
    && (forall w :: w in visited' <==> w in visited || w in nw)
    && (forall w :: w in visited ==> w in visited' && visited'[w] == visited[w])
    && (forall w :: w in nw ==> w in visited' && visited'[w] == Some(cur))
    && (forall w :: w in depth' <==> w in depth || (w in nw && w != start))
    && (forall w :: w in depth ==> w in depth' && depth'[w] == depth[w])
    && (forall w :: w in nw && w != start ==> w in depth' && depth'[w] == d)
  }

  lemma ExtendsHolds(next: string -> seq<string>, blocked: set<string>, start: string, visited: Visited,
                     depth: map<string, nat>, cur: string, d: nat)
    requires Forest(next, blocked, start, visited, depth)
    ensures Extends(visited, depth, NewWords(next(cur), visited.Keys), cur, start, d,
                    MarkAll(visited, NewWords(next(cur), visited.Keys), cur),
                    depth + DepthMarks(NewWords(next(cur), visited.Keys), start, d))
  {
    MarkAllEntries(visited, NewWords(next(cur), visited.Keys), cur);
    NewWordsFacts(next(cur), visited.Keys);
  }

  lemma ForestStep(next: string -> seq<string>, blocked: set<string>, start: string, visited: Visited,
                   depth: map<string, nat>, cur: string, visited': Visited, depth': map<string, nat>)
    requires Forest(next, blocked, start, visited, depth) && cur in depth
    requires Extends(visited, depth, NewWords(next(cur), visited.Keys), cur, start, depth[cur] + 1, visited', depth')
    ensures Forest(next, blocked, start, visited', depth')
  {
    NewWordsFacts(next(cur), visited.Keys);
  }

  /** The queue after dequeuing its front and appending the new words at step d. */
  lemma {:induction false} QueueShape(queue: Queue, nw: seq<string>, d: nat)
    requires |queue| > 0
    ensures |queue[1..] + Enqueued(nw, d)| == |queue| - 1 + |nw|
    ensures forall i :: 1 <= i < |queue| ==> (queue[1..] + Enqueued(nw, d))[i - 1] == queue[i]
    ensures forall k :: 0 <= k < |nw| ==> (queue[1..] + Enqueued(nw, d))[|queue| - 1 + k] == (nw[k], d)
  {
    EnqueuedEntries(nw, d);
  }

  lemma QueueEntriesStep(blocked: set<string>, start: string, queue: Queue, depth: map<string, nat>, expanded: set<string>,
                         nw: seq<string>, visited: Visited, visited': Visited, depth': map<string, nat>, cur: string, s: nat)
    requires QueueOk(blocked, start, queue, depth, expanded) && |queue| > 0
    requires queue[0].0 == cur && queue[0].1 == s
    requires s == depth[cur] || |nw| == 0
    requires forall w :: w in nw ==> w !in visited && w !in blocked
    requires Extends(visited, depth, nw, cur, start, s + 1, visited', depth')
    requires start in depth
    ensures var queue' := queue[1..] + Enqueued(nw, s + 1);
      forall i :: 0 <= i < |queue'| ==>
        queue'[i].0 in depth' && (queue'[i].1 == depth'[queue'[i].0] || (queue'[i].0 == start && start !in blocked))
  {
    var queue' := queue[1..] + Enqueued(nw, s + 1);
    QueueShape(queue, nw, s + 1);
    forall i | 0 <= i < |queue'|
      ensures queue'[i].0 in depth'
      ensures queue'[i].1 == depth'[queue'[i].0] || (queue'[i].0 == start && start !in blocked)
    {
      if i < |queue| - 1 {
        assert queue'[i] == queue[i + 1];
      } else {
        assert queue'[i] == (nw[i - |queue| + 1], s + 1);
      }
    }
  }

  lemma QueueOrderStep(blocked: set<string>, start: string, queue: Queue, depth: map<string, nat>, expanded: set<string>,
                       nw: seq<string>, depth': map<string, nat>, cur: string, s: nat)
    requires QueueOk(blocked, start, queue, depth, expanded) && |queue| > 0
    requires queue[0].0 == cur && queue[0].1 == s
    requires forall w :: w in depth' ==> w in depth || w in nw
    requires forall w :: w in depth ==> w in depth' && depth'[w] == depth[w]
    requires forall w :: w in nw && w in depth' && w !in depth ==> depth'[w] == s + 1
    ensures var queue' := queue[1..] + Enqueued(nw, s + 1);
      && (forall i, j :: 0 <= i <= j < |queue'| ==> queue'[i].1 <= queue'[j].1)
      && (forall i :: 0 <= i < |queue'| ==> queue'[i].1 <= queue'[0].1 + 1)
      && (|queue'| > 0 ==> forall w :: w in depth' ==> depth'[w] <= queue'[0].1 + 1)
  {
        var queue' := queue[1..] + Enqueued(nw, s + 1);
    QueueShape(queue, nw, s + 1);
    assert forall i :: 0 <= i < |queue| ==> s <= queue[i].1 <= s + 1;
    forall i | 0 <= i < |queue'|
      ensures s <= queue'[i].1 <= s + 1
    {
      if i < |queue| - 1 {
        assert queue'[i] == queue[i + 1];
        assert s <= queue[i + 1].1 <= s + 1;
      } else {
        assert queue'[i] == (nw[i - |queue| + 1], s + 1);
      }
    }
    forall i, j | 0 <= i <= j < |queue'|
      ensures queue'[i].1 <= queue'[j].1
    {
      if j < |queue| - 1 {
        assert queue'[i] == queue[i + 1] && queue'[j] == queue[j + 1];
      } else {
        assert queue'[j] == (nw[j - |queue| + 1], s + 1);
      }
    }
  }

  lemma QueueCoverStep(blocked: set<string>, start: string, queue: Queue, depth: map<string, nat>, expanded: set<string>,
                       nw: seq<string>, depth': map<string, nat>, cur: string, s: nat)
    requires QueueOk(blocked, start, queue, depth, expanded) && |queue| > 0
    requires queue[0].0 == cur && queue[0].1 == s
    requires forall w :: w in depth' ==> w in depth || (w in nw && w != start)
    ensures var queue' := queue[1..] + Enqueued(nw, s + 1);
      && (forall w :: w in depth' && w !in expanded + {cur} ==> w in QueueWords(queue'))
      && (start in expanded + {cur} || queue' == [(start, 0)])
  {
    var queue' := queue[1..] + Enqueued(nw, s + 1);
    QueueShape(queue, nw, s + 1);
    forall w | w in depth' && w !in expanded + {cur}
      ensures w in QueueWords(queue')
    {
      if w in nw && w != start {
        var k :| 0 <= k < |nw| && nw[k] == w;
        assert queue'[|queue| - 1 + k].0 == w;
      } else {
        assert w in QueueWords(queue);
        var i :| 0 <= i < |queue| && queue[i].0 == w;
        assert queue'[i - 1].0 == w;
      }
    }
  }

  lemma QueueStep(blocked: set<string>, start: string, queue: Queue, depth: map<string, nat>, expanded: set<string>,
                  nw: seq<string>, visited: Visited, visited': Visited, depth': map<string, nat>, cur: string, s: nat)
    requires QueueOk(blocked, start, queue, depth, expanded) && |queue| > 0
    requires queue[0].0 == cur && queue[0].1 == s
    requires s == depth[cur] || |nw| == 0
    requires forall w :: w in nw ==> w !in visited && w !in blocked
    requires Extends(visited, depth, nw, cur, start, s + 1, visited', depth')
    requires start in depth
    ensures QueueOk(blocked, start, queue[1..] + Enqueued(nw, s + 1), depth', expanded + {cur})
  {
    QueueEntriesStep(blocked, start, queue, depth, expanded, nw, visited, visited', depth', cur, s);
    QueueOrderStep(blocked, start, queue, depth, expanded, nw, depth', cur, s);
    QueueCoverStep(blocked, start, queue, depth, expanded, nw, depth', cur, s);
  }

  lemma ClosedStep(next: string -> seq<string>, blocked: set<string>, start: string, visited: Visited,
                   depth: map<string, nat>, expanded: set<string>, cur: string, s: nat,
                   visited': Visited, depth': map<string, nat>)
    requires Closed(next, start, visited, depth, expanded) && cur in depth
    requires forall w :: w in depth ==> depth[w] <= s + 1
    requires s == depth[cur] || cur in expanded
    requires Extends(visited, depth, NewWords(next(cur), visited.Keys), cur, start, s + 1, visited', depth')
    ensures Closed(next, start, visited', depth', expanded + {cur})
  {
    NewWordsFacts(next(cur), visited.Keys);
  }

  /** A word dequeued off its depth is the start coming back, whose neighbours are all visited. */
  lemma ReturnedStart(next: string -> seq<string>, blocked: set<string>, start: string, visited: Visited,
                      queue: Queue, depth: map<string, nat>, expanded: set<string>)
    requires QueueOk(blocked, start, queue, depth, expanded) && Closed(next, start, visited, depth, expanded)
    requires |queue| > 0 && queue[0].0 in depth && queue[0].1 != depth[queue[0].0]
    requires start in depth && depth[start] == 0
    ensures |NewWords(next(queue[0].0), visited.Keys)| == 0
  {
    assert queue[0].0 == start && start in expanded;
    assert forall w :: w in next(start) ==> w in visited;
    NewWordsFacts(next(start), visited.Keys);
  }

  lemma NoGoalStep(isGoal: (string, nat) -> bool, depth: map<string, nat>, expanded: set<string>,
                   cur: string, depth': map<string, nat>)
    requires expanded <= depth.Keys && NoGoalExpanded(isGoal, depth, expanded)
    requires cur in depth && !isGoal(cur, depth[cur])
    requires forall w :: w in depth ==> w in depth' && depth'[w] == depth[w]
    ensures expanded + {cur} <= depth'.Keys && NoGoalExpanded(isGoal, depth', expanded + {cur})
  {
  }

  /** The invariant holds after the first word is expanded and its new neighbours enqueued. */
  lemma ExpandStep(next: string -> seq<string>, isGoal: (string, nat) -> bool, blocked: set<string>, start: string,
                   visited: Visited, queue: Queue, depth: map<string, nat>, expanded: set<string>,
                   cur: string, s: nat, visited': Visited, queue': Queue, depth': map<string, nat>)
    requires BfsInv(next, isGoal, blocked, start, visited, queue, depth, expanded)
    requires |queue| > 0 && queue[0].0 == cur && queue[0].1 == s && !isGoal(cur, s)
    requires visited' == MarkAll(visited, NewWords(next(cur), visited.Keys), cur)
    requires queue' == queue[1..] + Enqueued(NewWords(next(cur), visited.Keys), s + 1)
    requires depth' == depth + DepthMarks(NewWords(next(cur), visited.Keys), start, s + 1)
    ensures BfsInv(next, isGoal, blocked, start, visited', queue', depth', expanded + {cur})
  {
    var nw := NewWords(next(cur), visited.Keys);
    NewWordsFacts(next(cur), visited.Keys);
    ExtendsHolds(next, blocked, start, visited, depth, cur, s + 1);
    if s != depth[cur] {
      ReturnedStart(next, blocked, start, visited, queue, depth, expanded);
      assert cur == start && start in expanded;
      NoGoalStep(isGoal, depth, expanded, cur, depth');
    } else {
      NoGoalStep(isGoal, depth, expanded, cur, depth');
    }
    ForestStep(next, blocked, start, visited, depth, cur, visited', depth');
    QueueStep(blocked, start, queue, depth, expanded, nw, visited, visited', depth', cur, s);
    ClosedStep(next, blocked, start, visited, depth, expanded, cur, s, visited', depth');
  }

  /** A goal at the queue front is at its BFS distance, and no shallower word is a goal. */
  lemma GoalFound(next: string -> seq<string>, isGoal: (string, nat) -> bool, blocked: set<string>, start: string,
                  visited: Visited, queue: Queue, depth: map<string, nat>, expanded: set<string>, w: string, s: nat)
    requires BfsInv(next, isGoal, blocked, start, visited, queue, depth, expanded)
    requires |queue| > 0 && queue[0].0 == w && queue[0].1 == s
    ensures w in depth
    ensures s == depth[w] || (w == start && start !in blocked)
    ensures s == depth[w] ==> AtDistance(next, blocked, start, w, s)
    ensures forall u :: u in depth && depth[u] < s ==> !isGoal(u, depth[u])
    ensures forall u, k: nat :: k < s && AtDistance(next, blocked, start, u, k) ==> !isGoal(u, k)
    ensures forall u :: u in depth ==> AtDistance(next, blocked, start, u, depth[u])
  {
    ShallowerExpanded(next, isGoal, blocked, start, visited, queue, depth, expanded, s);
    FrontBound(blocked, start, queue, depth, expanded);
    forall u | u in depth
      ensures AtDistance(next, blocked, start, u, depth[u])
    {
      ChainIsWalk(next, blocked, start, visited, depth, u);
      assert IsWalkBetween(next, blocked, PredChain(visited, start, depth, u), start, u);
      forall p | IsWalkBetween(next, blocked, p, start, u)
        ensures |p| >= depth[u] + 1
      {
        WalkBound(next, blocked, start, visited, depth, expanded, s, p);
      }
    }
    if s == depth[w] {
      ChainIsWalk(next, blocked, start, visited, depth, w);
      var chain := PredChain(visited, start, depth, w);
      assert IsWalkBetween(next, blocked, chain, start, w) && |chain| == s + 1;
      forall p | IsWalkBetween(next, blocked, p, start, w)
        ensures |p| >= s + 1
      {
        WalkBound(next, blocked, start, visited, depth, expanded, s, p);
      }
    }
  }

  /**
   * Every word closer to the start than the queue front was reached at its
   * distance and expanded, so it is not a goal.
   */
  lemma ShallowerExpanded(next: string -> seq<string>, isGoal: (string, nat) -> bool, blocked: set<string>, start: string,
                          visited: Visited, queue: Queue, depth: map<string, nat>, expanded: set<string>, s: nat)
    requires BfsInv(next, isGoal, blocked, start, visited, queue, depth, expanded)
    requires |queue| > 0 && queue[0].1 == s
    ensures forall u, k: nat :: k < s && AtDistance(next, blocked, start, u, k) ==>
              u in depth && depth[u] == k && u in expanded && !isGoal(u, k)
  {
    FrontBound(blocked, start, queue, depth, expanded);
    forall u, k: nat | k < s && AtDistance(next, blocked, start, u, k)
      ensures u in depth && depth[u] == k && u in expanded && !isGoal(u, k)
    {
      var p :| IsWalkBetween(next, blocked, p, start, u) && |p| == k + 1;
      WalkBound(next, blocked, start, visited, depth, expanded, s, p);
      assert p[k] == u;
      ChainIsWalk(next, blocked, start, visited, depth, u);
      assert IsWalkBetween(next, blocked, PredChain(visited, start, depth, u), start, u);
    }
  }

  /** With the queue empty, the reached words are exactly the reachable ones, at their distances. */
  lemma Exhausted(next: string -> seq<string>, isGoal: (string, nat) -> bool, blocked: set<string>, start: string,
                  visited: Visited, depth: map<string, nat>, expanded: set<string>)
    requires BfsInv(next, isGoal, blocked, start, visited, [], depth, expanded)
    ensures forall w :: w in depth ==> !isGoal(w, depth[w])
    ensures forall w, k :: AtDistance(next, blocked, start, w, k) ==> w in depth && depth[w] == k
    ensures forall w :: w in depth ==> AtDistance(next, blocked, start, w, depth[w])
  {
    forall w | w in depth
      ensures AtDistance(next, blocked, start, w, depth[w])
    {
      ChainIsWalk(next, blocked, start, visited, depth, w);
      assert IsWalkBetween(next, blocked, PredChain(visited, start, depth, w), start, w);
      forall p | IsWalkBetween(next, blocked, p, start, w)
        ensures |p| >= depth[w] + 1
      {
        WalkBound(next, blocked, start, visited, depth, expanded, |p|, p);
      }
    }
    forall w: string, k: nat | AtDistance(next, blocked, start, w, k)
      ensures w in depth && depth[w] == k
    {
      var p :| IsWalkBetween(next, blocked, p, start, w) && |p| == k + 1;
      WalkBound(next, blocked, start, visited, depth, expanded, k, p);
      ChainIsWalk(next, blocked, start, visited, depth, w);
      assert IsWalkBetween(next, blocked, PredChain(visited, start, depth, w), start, w);
    }
  }

  /** Visiting one more word of a finite universe shrinks the part still unvisited. */
  lemma UnvisitedShrinks(universe: set<string>, keys: set<string>, keys': set<string>, w: string)
    requires keys <= keys' && w in universe && w in keys' && w !in keys
    ensures |universe - keys'| < |universe - keys|
  {
    var before := universe - keys;
    var after := universe - keys';
    var gone := before - after;
    assert before == after + gone && after * gone == {};
    assert w in gone;
  }

  /**
   * Each expansion either visits a new word of the finite universe or
   * shortens the queue.
   */
  lemma Progress(next: string -> seq<string>, universe: set<string>, visited: Visited, queue: Queue,
                 visited': Visited, queue': Queue, cur: string, s: nat)
    requires forall u, v :: v in next(u) ==> v in universe
    requires |queue| > 0
    requires queue[0].0 == cur && queue[0].1 == s
    requires visited' == MarkAll(visited, NewWords(next(cur), visited.Keys), cur)
    requires queue' == queue[1..] + Enqueued(NewWords(next(cur), visited.Keys), s + 1)
    ensures |universe - visited'.Keys| < |universe - visited.Keys| ||
            (|universe - visited'.Keys| == |universe - visited.Keys| && |queue'| < |queue|)
  {
    var nw := NewWords(next(cur), visited.Keys);
    NewWordsFacts(next(cur), visited.Keys);
    MarkAllEntries(visited, nw, cur);
    EnqueuedEntries(nw, s + 1);
    if |nw| > 0 {
      UnvisitedShrinks(universe, visited.Keys, visited'.Keys, nw[0]);
    } else {
      assert visited'.Keys == visited.Keys;
    }
  }

  /** The invariant holds before the first iteration. */
  lemma InitialInv(next: string -> seq<string>, isGoal: (string, nat) -> bool, start: string, visited0: Visited)
    requires forall w :: w in visited0 ==> visited0[w] == None
    ensures BfsInv(next, isGoal, visited0.Keys, start, visited0, [(start, 0)], map[start := 0], {})
  {
    var queue: Queue := [(start, 0)];
    assert queue[0].0 == start;
    assert start in QueueWords(queue);
  }

  // ---------------------------------------------------------------------------
  // findPath
  // ---------------------------------------------------------------------------

  /**
   * findPath: dequeue (word, steps) pairs until one satisfies the goal test,
   * enqueueing each dequeued word's unvisited neighbours. The ghost
   * `universe` holds every word the neighbour function can yield; it makes
   * the search finite, as the word list does in both callers. The returned
   * ghost depth gives every reached word its BFS level.
   */
  method FindPath(visited0: Visited, queue0: Queue, isGoal: (string, nat) -> bool, next: string -> seq<string>,
                  ghost start: string, ghost universe: set<string>)
    returns (found: Option<string>, visited: Visited, ghost steps: nat, ghost depth: map<string, nat>)
    requires queue0 == [(start, 0)]
    requires forall w :: w in visited0 ==> visited0[w] == None
    requires forall u, v :: v in next(u) ==> v in universe
    ensures Forest(next, visited0.Keys, start, visited, depth)
    ensures forall w :: w in depth ==> AtDistance(next, visited0.Keys, start, w, depth[w])
    ensures found.Some? ==> found.value in depth && isGoal(found.value, steps)
    ensures found.Some? ==> steps == depth[found.value] || (found.value == start && start !in visited0)
    ensures found.Some? && steps == depth[found.value] ==> AtDistance(next, visited0.Keys, start, found.value, steps)
    ensures found.Some? ==> forall w :: w in depth && depth[w] < steps ==> !isGoal(w, depth[w])
    ensures found.Some? ==> forall u, k: nat :: k < steps && AtDistance(next, visited0.Keys, start, u, k) ==> !isGoal(u, k)
    ensures found.None? ==> forall w :: w in depth ==> !isGoal(w, depth[w])
    ensures found.None? ==> forall w, k :: AtDistance(next, visited0.Keys, start, w, k) ==> w in depth && depth[w] == k
  {
    ghost var blocked := visited0.Keys;
    visited := visited0;
    var queue := queue0;
    depth := map[start := 0];
    ghost var expanded: set<string> := {};
    steps := 0;
    InitialInv(next, isGoal, start, visited0);
    while |queue| > 0
      invariant BfsInv(next, isGoal, blocked, start, visited, queue, depth, expanded)
      decreases |universe - visited.Keys|, |queue|
    {
      var current, currentSteps := queue[0].0, queue[0].1;
      if isGoal(current, currentSteps) {
        GoalFound(next, isGoal, blocked, start, visited, queue, depth, expanded, current, currentSteps);
        found, steps := Some(current), currentSteps;
        return;
      }
      var nexts := next(current);
      ghost var newWords := NewWords(nexts, visited.Keys);
      ghost var depth' := depth + DepthMarks(newWords, start, currentSteps + 1);
      var visited', queue' := EnqueueNexts(visited, queue[1..], current, currentSteps, nexts);
      ExpandStep(next, isGoal, blocked, start, visited, queue, depth, expanded, current, currentSteps, visited', queue', depth');
      Progress(next, universe, visited, queue, visited', queue', current, currentSteps);
      visited, queue, depth, expanded := visited', queue', depth', expanded + {current};
    }
    Exhausted(next, isGoal, blocked, start, visited, depth, expanded);
    found := None;
  }
}

=== FILE: word_validator.dfy ===
// The move-legality rule of the word ladder (shared/WordValidator.ts): a move
// changes exactly one letter or rearranges all letters, never both and never
// neither; the goal word is accepted even when it is not in the allow list.

module WordValidator {

  datatype Option<T> = None | Some(value: T)

  /** The three-way outcome of validating a guess. */
  datatype ValidationResult = Success | UnknownWord | IllegalMove

  /**
   * A validator: the allow list in its iteration order (a Set in the program, so without
   * duplicates) and the goal word, which may be absent.
   */
  datatype Validator = Validator(allowList: seq<string>, goalWord: Option<string>)

  // ---------------------------------------------------------------------------
  // One-letter difference
  // ---------------------------------------------------------------------------

  /**
   * Position i of word1 differs in word2. Past the end of word2 the character
   * is missing, which never equals a character of word1.
   */
  predicate Differs(word1: string, word2: string, i: int)
    requires 0 <= i < |word1|
  {
    i >= |word2| || word1[i] != word2[i]
  }

  /** The positions of word1 at which word2 differs. */
  function DiffPositions(word1: string, word2: string): set<int>
  {
    set i | 0 <= i < |word1| && Differs(word1, word2, i)
  }

  /** The count #hasOneLetterDifference compares with 1. */
  predicate HasOneLetterDifference(word1: string, word2: string)
  {
    |DiffPositions(word1, word2)| == 1
  }

  /** Exactly one position holds different characters. */
  ghost predicate ExactlyOnePositionDiffers(word1: string, word2: string)
  {
    exists i :: 0 <= i < |word1| && Differs(word1, word2, i) &&
      forall j :: 0 <= j < |word1| && j != i ==> !Differs(word1, word2, j)
  }

  lemma OneLetterDifferenceMeaning(word1: string, word2: string)
    ensures HasOneLetterDifference(word1, word2) <==> ExactlyOnePositionDiffers(word1, word2)
  {
    var d := DiffPositions(word1, word2);
    if |d| == 1 {
      var i :| i in d;
      assert d - {i} == {} by {
        assert |d - {i}| == 0;
      }
      forall j | 0 <= j < |word1| && j != i
        ensures !Differs(word1, word2, j)
      {
        assert j !in d - {i};
      }
    }
    if ExactlyOnePositionDiffers(word1, word2) {
      var i :| 0 <= i < |word1| && Differs(word1, word2, i) &&
        forall j :: 0 <= j < |word1| && j != i ==> !Differs(word1, word2, j);
      assert d == {i};
    }
  }

  /**
   * The counting loop of #hasOneLetterDifference: diffCount goes up at every position
   * of word1 that word2 does not match, and the answer is diffCount == 1.
   */
  method CountOneLetterDifference(word1: string, word2: string) returns (b: bool)
    ensures b == HasOneLetterDifference(word1, word2)
  {
    var diffCount := 0;
    var i := 0;
    while i < |word1|
      invariant 0 <= i <= |word1|
      invariant diffCount == |set j | 0 <= j < i && Differs(word1, word2, j)|
    {
      ghost var before := set j | 0 <= j < i && Differs(word1, word2, j);
      if i >= |word2| || word1[i] != word2[i] {
        assert (set j | 0 <= j < i + 1 && Differs(word1, word2, j)) == before + {i};
        diffCount := diffCount + 1;
      } else {
        assert (set j | 0 <= j < i + 1 && Differs(word1, word2, j)) == before;
      }
      i := i + 1;
    }
    assert (set j | 0 <= j < i && Differs(word1, word2, j)) == DiffPositions(word1, word2);
    b := diffCount == 1;
  }

  // ---------------------------------------------------------------------------
  // Anagram: equal sorted letters
  // ---------------------------------------------------------------------------

  predicate SortedLetters(s: string)
  {
    forall i, j :: 0 <= i < j < |s| ==> s[i] <= s[j]
  }

  /** Inserts c into the sorted string s at its place. */
  function Insert(c: char, s: string): (r: string)
    requires SortedLetters(s)
    ensures SortedLetters(r)
    ensures multiset(r) == multiset(s) + multiset{c}
    ensures |r| == |s| + 1
  {
    if |s| == 0 then [c]
    else if c <= s[0] then [c] + s
    else
      var tail := Insert(c, s[1..]);
      InsertStep(c, s, tail);
      [s[0]] + tail
  }

  /** Putting back the smallest letter in front of the insertion into the rest keeps the order and the letters. */
  lemma InsertStep(c: char, s: string, tail: string)
    requires |s| > 0 && SortedLetters(s) && s[0] < c
    requires SortedLetters(tail) && multiset(tail) == multiset(s[1..]) + multiset{c}
    ensures SortedLetters([s[0]] + tail)
    ensures multiset([s[0]] + tail) == multiset(s) + multiset{c}
  {
    assert s == [s[0]] + s[1..];
    forall k | 0 <= k < |tail|
      ensures s[0] <= tail[k]
    {
      assert tail[k] in multiset(tail);
    }
  }

  /** The letters of a word in ascending order: `[...word].sort().join("")`. */
  function Sort(word: string): (r: string)
    ensures SortedLetters(r)
    ensures multiset(r) == multiset(word)
  {
    if |word| == 0 then []
    else
      assert word == [word[0]] + word[1..];
      Insert(word[0], Sort(word[1..]))
  }

  /** The anagram test of #isAnagram: the sorted letters are equal. */
  predicate IsAnagram(word1: string, word2: string)
  {
    Sort(word1) == Sort(word2)
  }

  /** Two sorted strings with the same letters are the same string. */
  lemma {:induction false} SortedUnique(s: string, t: string)
    requires SortedLetters(s) && SortedLetters(t)
    requires multiset(s) == multiset(t)
    ensures s == t
  {
    if |s| == 0 {
      assert |multiset(t)| == 0;
    } else {
      assert |t| > 0 by {
        assert |multiset(t)| == |multiset(s)| == |s|;
      }
      assert t[0] <= s[0] by {
        assert s[0] in multiset(t);
        var i :| 0 <= i < |t| && t[i] == s[0];
      }
      assert s[0] <= t[0] by {
        assert t[0] in multiset(s);
        var j :| 0 <= j < |s| && s[j] == t[0];
      }
      assert s[0] == t[0];
      assert multiset(s[1..]) == multiset(t[1..]) by {
        assert s == [s[0]] + s[1..];
        assert t == [t[0]] + t[1..];
        assert multiset(s) == multiset{s[0]} + multiset(s[1..]);
        assert multiset(t) == multiset{t[0]} + multiset(t[1..]);
        calc {
          multiset(s[1..]);
          multiset(s) - multiset{s[0]};
          multiset(t) - multiset{t[0]};
          multiset(t[1..]);
        }
      }
      SortedTail(s);
      SortedTail(t);
      SortedUnique(s[1..], t[1..]);
      assert s == [s[0]] + s[1..];
      assert t == [t[0]] + t[1..];
    }
  }

  lemma SortedTail(s: string)
    requires |s| > 0 && SortedLetters(s)
    ensures SortedLetters(s[1..])
  {
    forall i, j | 0 <= i < j < |s[1..]|
      ensures s[1..][i] <= s[1..][j]
    {
      assert s[1..][i] == s[i + 1] && s[1..][j] == s[j + 1];
    }
  }

  lemma AnagramMeaning(word1: string, word2: string)
    ensures IsAnagram(word1, word2) <==> multiset(word1) == multiset(word2)
  {
    if multiset(word1) == multiset(word2) {
      SortedUnique(Sort(word1), Sort(word2));
    }
  }

  // ---------------------------------------------------------------------------
  // Validation
  // ---------------------------------------------------------------------------

  /**
   * The shape rule stated on its own: equal length, a different word, and
   * exactly one of "one position differs" and "same letters".
   */
  ghost predicate IsLegalShape(current: string, guess: string)
  {
    && |guess| == |current|
    && guess != current
    && (ExactlyOnePositionDiffers(current, guess) <==> multiset(current) != multiset(guess))
  }

  function ValidateGuess(v: Validator, currentWord: string, guessWord: string): (r: ValidationResult)
    ensures |guessWord| != |currentWord| ==> r == IllegalMove
    ensures guessWord == currentWord ==> r == IllegalMove
    ensures |guessWord| == |currentWord| && guessWord != currentWord &&
            (ExactlyOnePositionDiffers(currentWord, guessWord) <==> multiset(currentWord) == multiset(guessWord))
            ==> r == IllegalMove
    ensures r == IllegalMove <==> !IsLegalShape(currentWord, guessWord)
    ensures IsLegalShape(currentWord, guessWord) && v.goalWord == Some(guessWord) ==> r == Success
    ensures IsLegalShape(currentWord, guessWord) && v.goalWord != Some(guessWord) ==>
              (r == Success <==> guessWord in v.allowList) &&
              (r == UnknownWord <==> guessWord !in v.allowList)
  {
    OneLetterDifferenceMeaning(currentWord, guessWord);
    AnagramMeaning(currentWord, guessWord);
    if |guessWord| != |currentWord| then IllegalMove
    else if guessWord == currentWord then IllegalMove
    else if HasOneLetterDifference(currentWord, guessWord) == IsAnagram(currentWord, guessWord) then IllegalMove
    else if v.goalWord == Some(guessWord) then Success
    else if guessWord !in v.allowList then UnknownWord
    else Success
  }

  /** The shape test does not depend on which of the two words is current. */
  lemma ShapeIsSymmetric(v: Validator, a: string, b: string)
    ensures IsLegalShape(a, b) <==> IsLegalShape(b, a)
    ensures ValidateGuess(v, a, b) == IllegalMove <==> ValidateGuess(v, b, a) == IllegalMove
  {
    if |a| == |b| {
      assert forall i :: 0 <= i < |a| ==> (Differs(a, b, i) <==> Differs(b, a, i));
      OneLetterDifferenceMeaning(a, b);
      OneLetterDifferenceMeaning(b, a);
      assert DiffPositions(a, b) == DiffPositions(b, a);
    }
  }

  // ---------------------------------------------------------------------------
  // Neighbour enumeration
  // ---------------------------------------------------------------------------

  /** The allow-list words, in allow-list order, that validate as Success. */
  function NextWords(v: Validator, currentWord: string, words: seq<string>): (r: seq<string>)
    ensures |r| <= |words|
  {
    if |words| == 0 then []
    else
      var rest := NextWords(v, currentWord, words[..|words| - 1]);
      if ValidateGuess(v, currentWord, words[|words| - 1]) == Success then rest + [words[|words| - 1]] else rest
  }

  /** The words the generator yields for currentWord. */
  function PossibleNextWords(v: Validator, currentWord: string): seq<string>
  {
    NextWords(v, currentWord, v.allowList)
  }

  lemma {:induction false} NextWordsMembers(v: Validator, currentWord: string, words: seq<string>)
    ensures forall w :: w in NextWords(v, currentWord, words) <==>
                        w in words && ValidateGuess(v, currentWord, w) == Success
  {
    if |words| > 0 {
      NextWordsMembers(v, currentWord, words[..|words| - 1]);
      assert words == words[..|words| - 1] + [words[|words| - 1]];
    }
  }

  /** Every yielded word is an allowed, successful move, and every such word is yielded. */
  lemma PossibleNextWordsMembers(v: Validator, currentWord: string)
    ensures forall w :: w in PossibleNextWords(v, currentWord) <==>
                        w in v.allowList && ValidateGuess(v, currentWord, w) == Success
  {
    NextWordsMembers(v, currentWord, v.allowList);
  }

  /** With no goal word (as in the path finders), a move is its legal shape plus membership. */
  lemma NoGoalMoves(wordList: seq<string>, currentWord: string)
    ensures forall w :: w in PossibleNextWords(Validator(wordList, None), currentWord) <==>
                        w in wordList && IsLegalShape(currentWord, w)
  {
    PossibleNextWordsMembers(Validator(wordList, None), currentWord);
  }

  /** The generator loop of getAllPossibleNextWords, collecting what it yields. */
  method GetAllPossibleNextWords(v: Validator, currentWord: string) returns (yielded: seq<string>)
    ensures yielded == PossibleNextWords(v, currentWord)
    ensures forall w :: w in yielded ==> w in v.allowList
  {
    yielded := [];
    var i := 0;
    while i < |v.allowList|
      invariant 0 <= i <= |v.allowList|
      invariant yielded == NextWords(v, currentWord, v.allowList[..i])
    {
      var word := v.allowList[i];
      assert v.allowList[..i + 1][..i] == v.allowList[..i];
      if ValidateGuess(v, currentWord, word) == Success {
        yielded := yielded + [word];
      }
      i := i + 1;
    }
    assert v.allowList[..i] == v.allowList;
    PossibleNextWordsMembers(v, currentWord);
  }
}
